=== FILE: README.md ===
# DivaDivaModule data layer in Dafny

DivaDivaModule is a desktop browser for the character modules of a rhythm
game. Behind its windows sits a small data layer, and this project models it:

- **The module catalog** (`catalog.dfy`). `load_modules` folds the rows of the
  catalog csv into an ordered dict from module ID to module record. A record
  takes its descriptive fields from the first row with its ID. It collects
  every distinct (Item ID, Object(s), Type) triple of its rows, in first-seen
  order. Rows without a module ID are skipped.
- **The notes store** (`notes.dfy`). A note is a named list of entries. Each
  entry is a module ID, an item ID and a description. The window keeps the
  notes dict and an order list of note names. The notes csv has one row per
  entry. Covered here:
  - `load_notes`
  - `save_all_notes`, which rewrites the whole file
  - `save_note`, which appends one row
  - the item dialog's save (`on_save`)
  - `new_note_action`
  - `delete_item_action`
- **The module list filter** (`module_filter.dfy`). `populate_module_entries`
  keeps a module when it passes the character filter and the lower-cased
  search term occurs in its lower-cased label `[ID] name (character)`.
- **The theme manager** (`theme.dfy`). This covers the two palettes, and
  `get_theme`, `set_theme`, `save_settings` and `load_settings` over the JSON
  settings file.

Supporting modules:

- `wrappers.dfy`: `Option` and `Result`.
- `seqs.dfy`: duplicate-free lists, first-seen deduplication, `list.remove`
  and subsequences.
- `dicts.dfy`: Python's insertion-ordered dicts, as association lists.
- `text.dfy`: `str.strip`, `str.lower` and substring search on ASCII text.

File contents reach the model as already-parsed values:

- catalog rows as `csv.DictReader` records (column to field);
- notes rows as lists of fields;
- the settings file as absent, malformed, or a JSON document.

Every operation is a pure function from the old state to the new one. Error
paths are `Result` values: a Python exception, or a warning dialog that
aborts the action.

A reload followed by `save_all_notes` does not always write the same rows in
the same order. `load_notes` groups the entries by
note, so a file in which two notes' rows alternate comes back regrouped.
`Notes.LoadThenSave` states the general case and
`Notes.InterleavedNotesRegroup` gives a concrete file.

## Model

| member | source | states |
|---|---|---|
| Seqs.Dedup | divadivamodule.py:622-625 | The "seen set + append" pattern keeps each element exactly once, and keeps nothing that was not in the input. |
| Seqs.DedupKeepsFirstSeenOrder | divadivamodule.py:622-625 | The kept elements are ordered by their first occurrence in the input. |
| Seqs.RemoveFirst | divadivamodule.py:1114 | `list.remove(x)` drops the first occurrence of `x` and keeps every other element in its order. At line 1114 `x` is always in the list; the model leaves a list without `x` unchanged where Python raises `ValueError`. |
| Dicts.Get | divadivamodule.py:1045-1046 | `d.get(k)` finds a value exactly when `k` is a key, and the value found is the one paired with `k`. |
| Dicts.Set | divadivamodule.py:1055 | `d[k] = v` keeps an existing key in place or appends a new key last. Afterwards `k` reads back `v` and every other key reads as before. |
| Dicts.Remove | divadivamodule.py:1113 | `del d[k]` removes `k` from the key list, the other keys keeping their order, and leaves every other key's value unchanged. At line 1113 `k` is always a key; the model leaves a dict without `k` unchanged where Python raises `KeyError`. |
| Text.Strip | divadivamodule.py:1044 | `strip()` returns the slice of its input that remains after removing the leading and trailing whitespace, so everything before and after it is whitespace and it neither starts nor ends with whitespace. The result is empty exactly when the input is all whitespace. |
| Text.Lower | divadivamodule.py:1312-1319 | `lower()` keeps the length, leaves no ASCII capital, maps each capital to its small letter, and leaves every other character unchanged. |
| Text.LowerIdempotent | divadivamodule.py:1312-1319 | Lower-casing twice is lower-casing once. |
| Text.Contains | divadivamodule.py:1319 | `needle in haystack` holds exactly when `needle` occurs as a contiguous slice of `haystack`. |
| Text.ContainsEmpty | divadivamodule.py:1319 | The empty search term occurs in every label. |
| Text.ContainsTransitive | divadivamodule.py:1319 | A slice of a slice of a string is a slice of that string. |
| Catalog.LoadModules | divadivamodule.py:591-635 | The catalog's IDs are the distinct non-empty module IDs of the rows, in the order they first appear. No ID is held twice, and each record's `Module ID` is its key. |
| Catalog.LoadModulesMatchesReference | divadivamodule.py:596-625 | The keys are the distinct non-empty module IDs, in first-seen order. Each record has the fields of the first row with its ID and the distinct item triples of all its rows. |
| Catalog.LaterRowsKeepDescription | divadivamodule.py:600-611 | More rows for an ID already loaded never change that module's descriptive fields. |
| Catalog.ModuleItems | divadivamodule.py:613-625 | A module's items are duplicate-free. They include every triple of its own rows and nothing from other modules' rows, in the order each triple first appears. |
| Notes.AddEntry | divadivamodule.py:1053-1057 | Appends the entry to the note, creating the note at the end of the order when it is new. Other notes are unchanged, and the order list stays equal to the dict's keys. |
| Notes.LoadNotes | divadivamodule.py:671-685 | A successful load yields a consistent store (the order list equals the dict's keys) with no empty notes. |
| Notes.LoadNotesMatchesReference | divadivamodule.py:671-685 | Loading fails exactly when some row has more than four fields, and then reports the first such row. Rows with fewer fields are skipped. Otherwise the order is the distinct note names in first-seen order, and each note holds the entries of its four-field rows in file order. |
| Notes.SaveAllNotes | divadivamodule.py:687-694 | Every row written has exactly the four fields `load_notes` accepts. |
| Notes.SaveThenLoad | divadivamodule.py:687-694 | Loading the written file gives back every note that has entries, with the same entries, in dict order. Notes without entries are lost. |
| Notes.SavedStoreReloads | divadivamodule.py:687-694 | A consistent store without empty notes reloads from its own file unchanged. |
| Notes.LoadThenSave | divadivamodule.py:671-694 | Rewriting a loaded file writes its four-field rows grouped note by note, with notes in first-seen order. |
| Notes.InterleavedNotesRegroup | divadivamodule.py:671-694 | The rows a, b, a are written back as a, a, b, which is not the original file. |
| Notes.SaveNote | divadivamodule.py:665-669 | Loading the file after the appended row is loading the old file and then adding that entry. |
| Notes.EditEntry | divadivamodule.py:1059 | Replacing entry `i` fails when the note is unknown or `i` is out of range. Otherwise it changes only that entry and keeps the order. |
| Notes.OnSave | divadivamodule.py:1043-1059 | The save is refused exactly when a stripped text field is empty or a selection has no ID. In add mode the entry is appended, creating the note if needed. In edit mode the save succeeds exactly when the note exists and the index is in range (otherwise it reports an unknown note or a missing entry), and then only the chosen entry is replaced. Other notes are unchanged. |
| Notes.OnSaveReloads | divadivamodule.py:1043-1061 | When the window holds no empty note, the file rewritten after a dialog save reloads to exactly the store the window shows. |
| Notes.NewNote | divadivamodule.py:1068-1076 | A cancelled or blank answer does nothing. An existing stripped name is refused. Otherwise an empty note with the stripped name is added at the end of the order. |
| Notes.NewNoteVanishesOnReload | divadivamodule.py:1068-1077 | A new empty note adds no row to the file, so a reload does not bring it back. |
| Notes.DeleteEntry | divadivamodule.py:1101-1114 | Without confirmation nothing happens. Otherwise exactly entry `i` is removed, the rest keep their order, and a note left empty is removed from both the dict and the order list. Other notes are unchanged. |
| Notes.DeleteReloads | divadivamodule.py:1109-1115 | When the window holds no empty note, the file rewritten after a deletion reloads to exactly the store the window shows. |
| Notes.DeleteUndoesAdd | divadivamodule.py:1053-1114 | Deleting the entry just added to a note that was absent or had entries restores the store exactly. |
| Notes.EditBackRestores | divadivamodule.py:1059 | Editing an entry and then putting the old entry back restores the store. |
| ModuleFilter.Visible | divadivamodule.py:1310-1320 | The listed modules are a subsequence of the catalog's modules, and all have the chosen character unless the filter is "All Characters". |
| ModuleFilter.VisibleSnoc | divadivamodule.py:1314-1320 | The list is built as the loop builds it: walking the catalog in order, each module that passes is appended once. |
| ModuleFilter.ShownIsVisible | divadivamodule.py:1314-1320 | Every module that passes both tests is listed. |
| ModuleFilter.VisibleIsShown | divadivamodule.py:1314-1320 | Every listed module is a catalog module that passes both tests. |
| ModuleFilter.ShowAll | divadivamodule.py:1313-1320 | With "All Characters" and an empty search, every module is listed, in catalog order. |
| ModuleFilter.SearchIgnoresCase | divadivamodule.py:1312-1319 | The search term's letter case does not change the list. |
| ModuleFilter.LongerSearchNarrows | divadivamodule.py:1312-1320 | Extending the search term can only remove modules from the list. |
| ModuleFilter.StartupListInFileOrder | divadivamodule.py:1346 | At start-up the unfiltered list has one module per catalog ID, in the order the IDs first appear in the file. |
| Theme.Init | divadivamodule.py:87-88 | The manager starts on the light theme, whose palette `get_theme` returns, and the settings file is passed through unchanged. |
| Theme.GetTheme | divadivamodule.py:119-120 | The lookup succeeds exactly for a string that names a theme: "light" gives the light palette and "dark" the dark one. The palette colours exactly the thirteen widget roles. |
| Theme.SaveSettings | divadivamodule.py:99-117 | Writing fails exactly for a file holding non-object JSON when no data is passed. Otherwise `theme` is set to the current theme in the passed data or the file's object: an existing `theme` key keeps its place, a new one goes last, and every other key keeps its value and place. An absent or malformed file yields `{"theme": ...}`. |
| Theme.SetTheme | divadivamodule.py:122-125 | An unknown name changes nothing. A theme name becomes current, and the file is rewritten unless writing fails. |
| Theme.LoadSettingsAsWritten | divadivamodule.py:90-97 | Any stored `theme` value replaces the current theme. A missing, malformed or non-object file changes nothing. |
| Theme.UnknownThemeBreaksGetTheme | divadivamodule.py:90-97 | After loading `{"theme": "blue"}` as written, `get_theme` fails. |
| Theme.LoadSettings | divadivamodule.py:90-97 | Corrected load: only a stored theme name replaces the current theme, so a usable theme stays usable. |
| Theme.LoadSettingsAgrees | divadivamodule.py:90-97 | The corrected and as-written loads agree on every file that stores no theme or a valid one. |
| Theme.StartupThemeUsable | divadivamodule.py:1527 | With the corrected load, `get_theme` succeeds after start-up whatever the settings file holds. |
| Theme.SetThemeThenLoad | divadivamodule.py:99-125 | After choosing a theme, loading the rewritten file yields that theme under either load. |
| Theme.SetThemeIdempotent | divadivamodule.py:122-125 | Choosing the same theme twice leaves the same state and file as choosing it once. |
| Theme.DarkThemeRemembered | divadivamodule.py:122-125 | Choosing "dark" on an empty settings object writes `{"theme": "dark"}`, and the next start-up uses the dark palette, with the load as written and with the corrected one. |

## Left out

- File and JSON input/output is left out: opening, `os.path.exists`, `os.makedirs` and csv quoting. Files reach the model as parsed values, and the model returns the rows or document that would be written.
- A short catalog row is left out: `csv.DictReader` fills its missing columns with `None`, and the model reads them as `""`.
- A catalog row with surplus fields is left out, because it only adds a `None` key to the kept record.
- `str.strip` and `str.lower` are modelled on ASCII only, because Unicode whitespace and case mapping are out of scope. The ASCII whitespace includes the separators 28-31.
- JSON numbers are whole numbers only. Floats are out of scope and do not affect the `theme` key.
- The numeric sort of the module combobox (line 992) is left out: it only orders a dialog's choices.
- Tk widgets, dialogs, theme painting, gradients, visibility tests and the external launcher are left out.
- The confirmation dialog of a deletion becomes a `confirmed` flag.
- The text of the name prompt becomes an `Option<string>`.
- The notes window calls `Notes.OnSave`, `Notes.NewNote` and `Notes.DeleteEntry` only on a store loaded from the file, so each of them requires a consistent store.
- `save_current_settings` in the settings window is left out, because it writes the settings file directly, not through the theme manager.
- `reset_settings` is only partly modelled. It first calls `set_theme('light')` (line 807), which is `Theme.SetTheme`. It then overwrites the file directly with `mikumikumodel_exe` cleared and `theme` set to `light` (lines 814-824), and that direct write is left out.
- The `settings_data` argument of `save_settings` is modelled, although no caller passes one.
- `Notes.SaveNote`: `save_note` (line 665) is never called in the program. It is still modelled, because it is a public function of the data layer.
- `Seqs.RemoveFirst` and `Dicts.Remove`: removing a value or key that is absent leaves the list or dict unchanged, where Python raises `ValueError` or `KeyError`. The notes window only removes a note it holds, so that case never arises.
- `Theme.GetTheme`: a lookup with an unhashable value (a JSON list or object) raises `TypeError`, not `KeyError`. The model reports both as the same failure.

## Findings

| source | as written | input that shows it | evidently intended | confidence | as-written member | corrected member |
|---|---|---|---|---|---|---|
| divadivamodule.py:95 | `load_settings` puts whatever value the settings file holds under `theme` into `current_theme`, with no check against `THEMES` | a settings file `{"theme": "blue"}`: the next `get_theme` (line 120) raises `KeyError`, and every themed window fails | only a name in `THEMES` replaces the current theme, as `set_theme` (line 123) already requires | high (not executed) | Theme.LoadSettingsAsWritten, Theme.UnknownThemeBreaksGetTheme | Theme.LoadSettings, Theme.StartupThemeUsable |

=== FILE: catalog.dfy ===
/** The module catalog: `load_modules` folds the rows of the catalog file into
    an ordered dict from module ID to module record. Each record takes its
    descriptive fields from the first row that names its ID, and collects the
    distinct (Item ID, Object(s), Type) triples of all rows with that ID. */
module Catalog {
  import opened Wrappers
  import opened Seqs
  import opened Dicts

  /** One row of the catalog file as `csv.DictReader` yields it: column header to field. */
  type Record = map<string, string>

  datatype Item = Item(itemId: string, objects: string, kind: string)

  datatype Module = Module(
    id: string,
    nameEn: string,
    nameJp: string,
    character: string,
    source: string,
    cosId: string,
    names: Record,     // the whole first row, kept under 'Names'
    items: seq<Item>)

  /** Module ID to module, in the order the IDs first appear in the file. */
  type Catalog = Dict<string, Module>

  /** `row.get(column, '')` */
  function Field(row: Record, column: string): string {
    if column in row then row[column] else ""
  }

  /** The row's module ID; `None` when `row.get('Module ID')` is missing or empty. */
  function ModuleIdOf(row: Record): Option<string> {
    if "Module ID" in row && row["Module ID"] != "" then Some(row["Module ID"]) else None
  }

  /** The item triple a row contributes. */
  function ItemOf(row: Record): Item {
    Item(Field(row, "Item ID"), Field(row, "Object(s)"), Field(row, "Type"))
  }

  /** The record created when an ID is seen for the first time, before any item is added. */
  function NewModule(id: string, row: Record): Module {
    Module(id, Field(row, "Name (EN)"), Field(row, "Name (JP)"), Field(row, "Character"),
           Field(row, "Source"), Field(row, "COS ID"), row, [])
  }

  /** Two records agree on everything but their items. */
  predicate SameDescription(a: Module, b: Module) {
    a.(items := []) == b.(items := [])
  }

  /** The body of the loop over the rows: skip a row without an ID, create the
      record on first sight, append the row's item unless the record already has it.
      (`load_modules` keeps a per-module `_seen_items` set; it always holds exactly
      the items of the record, so membership in the item list decides the same.) */
  function AddRow(cat: Catalog, row: Record): Catalog {
    match ModuleIdOf(row)
    case None => cat
    case Some(id) =>
      var cat1 := if id in Keys(cat) then cat else Set(cat, id, NewModule(id, row));
      var m := Get(cat1, id).value;
      var item := ItemOf(row);
      if item in m.items then cat1 else Set(cat1, id, m.(items := m.items + [item]))
  }

  /** `load_modules` over rows already split by the csv reader. */
  function LoadModules(rows: seq<Record>): (cat: Catalog)
    ensures WellFormed(cat)
    ensures Keys(cat) == Dedup(IdsOf(rows))
    ensures forall id :: id in Keys(cat) ==> Get(cat, id).value.id == id
  {
    if |rows| == 0 then []
    else
      var p := rows[..|rows| - 1];
      var r := rows[|rows| - 1];
      AddRowKeys(LoadModules(p), IdsOf(p), r);
      AddRow(LoadModules(p), r)
  }

  /** A row adds its module ID to the keys when the ID is new, and nothing
      otherwise, so the keys stay the deduplicated IDs seen so far. */
  lemma AddRowKeys(cat: Catalog, ids: seq<string>, r: Record)
    requires Keys(cat) == Dedup(ids)
    ensures Keys(AddRow(cat, r)) == Dedup(ids + (if ModuleIdOf(r).Some? then [ModuleIdOf(r).value] else []))
  {
    match ModuleIdOf(r)
    case None =>
      assert ids + [] == ids;
    case Some(x) =>
      DedupSnoc(ids, x);
      if x in Keys(cat) {
        assert Keys(AddRow(cat, r)) == Keys(cat);
      } else {
        assert Keys(AddRow(cat, r)) == Keys(cat) + [x];
      }
  }

  // ---------------------------------------------------------------------------
  // Reference description of the catalog, independent of the fold

  /** The module IDs named by the rows, in file order, repeats included. */
  function IdsOf(rows: seq<Record>): seq<string> {
    if |rows| == 0 then []
    else
      var last := rows[|rows| - 1];
      IdsOf(rows[..|rows| - 1]) + (if ModuleIdOf(last).Some? then [ModuleIdOf(last).value] else [])
  }

  /** The rows that name module `id`, in file order. */
  function RowsFor(rows: seq<Record>, id: string): (rs: seq<Record>)
    ensures forall i :: 0 <= i < |rs| ==> ModuleIdOf(rs[i]) == Some(id)
  {
    if |rows| == 0 then []
    else
      var last := rows[|rows| - 1];
      RowsFor(rows[..|rows| - 1], id) + (if ModuleIdOf(last) == Some(id) then [last] else [])
  }

  function ItemsOf(rows: seq<Record>): seq<Item> {
    seq(|rows|, i requires 0 <= i < |rows| => ItemOf(rows[i]))
  }

  /** What the catalog should hold for `id`, given the rows naming it. */
  function Expected(id: string, rs: seq<Record>): Module
    requires |rs| > 0
  {
    NewModule(id, rs[0]).(items := Dedup(ItemsOf(rs)))
  }

  lemma {:induction false} IdsOfRowsFor(rows: seq<Record>, id: string)
    ensures id in IdsOf(rows) <==> |RowsFor(rows, id)| > 0
  {
    if |rows| > 0 {
      IdsOfRowsFor(rows[..|rows| - 1], id);
    }
  }

  /** A row naming an ID already in the catalog extends that record as `Expected` says. */
  lemma AddRowToKnownId(cat: Catalog, r: Record, x: string, rs: seq<Record>)
    requires ModuleIdOf(r) == Some(x) && |rs| > 0
    requires Get(cat, x) == Some(Expected(x, rs))
    ensures Keys(AddRow(cat, r)) == Keys(cat)
    ensures Get(AddRow(cat, r), x) == Some(Expected(x, rs + [r]))
    ensures forall id :: id != x ==> Get(AddRow(cat, r), id) == Get(cat, id)
  {
    var m := Expected(x, rs);
    var item := ItemOf(r);
    ExpectedSnoc(x, rs, r);
    assert AddRow(cat, r) == Set(cat, x, Expected(x, rs + [r])) by {
      if item in m.items {
        SetCurrent(cat, x);
      }
    }
  }

  /** One more row for an ID adds its triple to the expected items unless it is there. */
  lemma ExpectedSnoc(x: string, rs: seq<Record>, r: Record)
    requires |rs| > 0
    ensures Expected(x, rs + [r]) ==
      var m := Expected(x, rs);
      if ItemOf(r) in m.items then m else m.(items := m.items + [ItemOf(r)])
  {
    var d := Dedup(ItemsOf(rs));
    var d' := Dedup(ItemsOf(rs + [r]));
    assert d' == if ItemOf(r) in d then d else d + [ItemOf(r)] by {
      ItemsOfSnoc(rs, r);
      DedupSnoc(ItemsOf(rs), ItemOf(r));
    }
    assert (rs + [r])[0] == rs[0];
    assert Expected(x, rs + [r]) == NewModule(x, rs[0]).(items := d');
  }

  lemma ItemsOfSnoc(rs: seq<Record>, r: Record)
    ensures ItemsOf(rs + [r]) == ItemsOf(rs) + [ItemOf(r)]
  {
    assert |ItemsOf(rs + [r])| == |ItemsOf(rs) + [ItemOf(r)]|;
    forall k | 0 <= k < |rs| + 1
      ensures ItemsOf(rs + [r])[k] == (ItemsOf(rs) + [ItemOf(r)])[k]
    {
    }
  }

  /** A row naming a new ID appends a record holding just that row's item. */
  lemma AddRowToNewId(cat: Catalog, r: Record, x: string)
    requires ModuleIdOf(r) == Some(x) && x !in Keys(cat)
    ensures Keys(AddRow(cat, r)) == Keys(cat) + [x]
    ensures Get(AddRow(cat, r), x) == Some(Expected(x, [r]))
    ensures forall id :: id != x ==> Get(AddRow(cat, r), id) == Get(cat, id)
  {
    var item := ItemOf(r);
    var m0 := NewModule(x, r);
    assert m0.(items := [item]) == Expected(x, [r]) by {
      assert ItemsOf([r]) == [] + [item];
      DedupSnoc([], item);
    }
    AddRowNewUnfold(cat, r, x);
    SetTwice(cat, x, m0, m0.(items := [item]));
  }

  lemma AddRowNewUnfold(cat: Catalog, r: Record, x: string)
    requires ModuleIdOf(r) == Some(x) && x !in Keys(cat)
    ensures AddRow(cat, r) == Set(Set(cat, x, NewModule(x, r)), x, NewModule(x, r).(items := [ItemOf(r)]))
  {
    var cat1 := Set(cat, x, NewModule(x, r));
    assert Get(cat1, x).value == NewModule(x, r);
    var m := Get(cat1, x).value;
    assert m == NewModule(x, r) && ItemOf(r) !in m.items;
    assert m.items + [ItemOf(r)] == [ItemOf(r)];
  }

  /** The catalog holds exactly the IDs the rows name, in first-seen order, and
      for each the record described by `Expected`: fields from the first row
      naming it, items the distinct triples of all rows naming it. */
  ghost predicate MatchesReference(rows: seq<Record>) {
    && Keys(LoadModules(rows)) == Dedup(IdsOf(rows))
    && forall id :: id in Keys(LoadModules(rows)) ==>
         |RowsFor(rows, id)| > 0 && Get(LoadModules(rows), id) == Some(Expected(id, RowsFor(rows, id)))
  }

  lemma RowsSnoc(p: seq<Record>, r: Record)
    ensures LoadModules(p + [r]) == AddRow(LoadModules(p), r)
    ensures IdsOf(p + [r]) == IdsOf(p) + (if ModuleIdOf(r).Some? then [ModuleIdOf(r).value] else [])
    ensures forall id :: RowsFor(p + [r], id) == RowsFor(p, id) + (if ModuleIdOf(r) == Some(id) then [r] else [])
  {
    assert (p + [r])[..|p|] == p;
  }

  lemma StepWithoutId(p: seq<Record>, r: Record)
    requires MatchesReference(p) && ModuleIdOf(r).None?
    ensures MatchesReference(p + [r])
  {
    var rows := p + [r];
    RowsSnoc(p, r);
    assert LoadModules(rows) == LoadModules(p);
    assert IdsOf(rows) == IdsOf(p);
    forall id | id in Keys(LoadModules(rows))
      ensures |RowsFor(rows, id)| > 0 && Get(LoadModules(rows), id) == Some(Expected(id, RowsFor(rows, id)))
    {
      assert RowsFor(rows, id) == RowsFor(p, id);
    }
  }

  lemma StepWithKnownId(p: seq<Record>, r: Record, x: string)
    requires MatchesReference(p) && ModuleIdOf(r) == Some(x) && x in Keys(LoadModules(p))
    ensures MatchesReference(p + [r])
  {
    var rows := p + [r];
    var cat := LoadModules(p);
    RowsSnoc(p, r);
    DedupSnoc(IdsOf(p), x);
    AddRowToKnownId(cat, r, x, RowsFor(p, x));
    OtherIdsUnchanged(p, r, x);
  }

  /** After a row naming `x`, every other ID still has its reference record. */
  lemma OtherIdsUnchanged(p: seq<Record>, r: Record, x: string)
    requires MatchesReference(p) && ModuleIdOf(r) == Some(x)
    requires forall id :: id != x ==> Get(AddRow(LoadModules(p), r), id) == Get(LoadModules(p), id)
    ensures forall id :: id in Keys(LoadModules(p + [r])) && id != x ==>
      |RowsFor(p + [r], id)| > 0 && Get(LoadModules(p + [r]), id) == Some(Expected(id, RowsFor(p + [r], id)))
  {
    var rows := p + [r];
    RowsSnoc(p, r);
    forall id | id in Keys(LoadModules(rows)) && id != x
      ensures |RowsFor(rows, id)| > 0 && Get(LoadModules(rows), id) == Some(Expected(id, RowsFor(rows, id)))
    {
      OtherIdUnchanged(p, r, x, id);
    }
  }

  lemma OtherIdUnchanged(p: seq<Record>, r: Record, x: string, id: string)
    requires ModuleIdOf(r) == Some(x) && id != x
    requires id in Keys(LoadModules(p)) ==>
      |RowsFor(p, id)| > 0 && Get(LoadModules(p), id) == Some(Expected(id, RowsFor(p, id)))
    requires Get(LoadModules(p + [r]), id) == Get(LoadModules(p), id)
    requires RowsFor(p + [r], id) == RowsFor(p, id) + (if ModuleIdOf(r) == Some(id) then [r] else [])
    ensures id in Keys(LoadModules(p + [r])) ==>
      |RowsFor(p + [r], id)| > 0 && Get(LoadModules(p + [r]), id) == Some(Expected(id, RowsFor(p + [r], id)))
  {
    assert RowsFor(p + [r], id) == RowsFor(p, id);
  }

  lemma StepWithNewId(p: seq<Record>, r: Record, x: string)
    requires MatchesReference(p) && ModuleIdOf(r) == Some(x) && x !in Keys(LoadModules(p))
    ensures MatchesReference(p + [r])
  {
    var rows := p + [r];
    var cat := LoadModules(p);
    RowsSnoc(p, r);
    DedupSnoc(IdsOf(p), x);
    IdsOfRowsFor(p, x);
    assert RowsFor(rows, x) == [r];
    AddRowToNewId(cat, r, x);
    OtherIdsUnchanged(p, r, x);
  }

  lemma {:induction false} LoadModulesMatchesReference(rows: seq<Record>)
    ensures MatchesReference(rows)
  {
    if |rows| > 0 {
      var p := rows[..|rows| - 1];
      var r := rows[|rows| - 1];
      assert rows == p + [r];
      LoadModulesMatchesReference(p);
      match ModuleIdOf(r)
      case None => StepWithoutId(p, r);
      case Some(x) =>
        if x in Keys(LoadModules(p)) {
          StepWithKnownId(p, r, x);
        } else {
          StepWithNewId(p, r, x);
        }
    }
  }

  // ---------------------------------------------------------------------------
  // Properties of the loaded catalog

  lemma {:induction false} RowsForAppend(rows: seq<Record>, more: seq<Record>, id: string)
    ensures RowsFor(rows + more, id) == RowsFor(rows, id) + RowsFor(more, id)
  {
    if |more| == 0 {
      assert rows + more == rows;
    } else {
      assert (rows + more)[..|rows + more| - 1] == rows + more[..|more| - 1];
      RowsForAppend(rows, more[..|more| - 1], id);
    }
  }

  /** Later rows for an ID already in the catalog never change its descriptive fields. */
  lemma LaterRowsKeepDescription(rows: seq<Record>, more: seq<Record>, id: string)
    requires id in Keys(LoadModules(rows))
    ensures id in Keys(LoadModules(rows + more))
    ensures SameDescription(Get(LoadModules(rows + more), id).value, Get(LoadModules(rows), id).value)
  {
    LoadModulesMatchesReference(rows);
    var rs := RowsFor(rows, id);
    RowsForAppend(rows, more, id);
    IdsOfRowsFor(rows + more, id);
    var ids := IdsOf(rows + more);
    var i :| 0 <= i < |ids| && ids[i] == id;
    assert id in Keys(LoadModules(rows + more));
    LoadModulesMatchesReference(rows + more);
    assert (rs + RowsFor(more, id))[0] == rs[0];
  }

  /** A module lists every distinct item triple of its rows exactly once, none
      from another module's rows, in the order the triples first appear. */
  lemma ModuleItems(rows: seq<Record>, id: string)
    requires id in Keys(LoadModules(rows))
    ensures var m := Get(LoadModules(rows), id).value;
      && Distinct(m.items)
      && (forall r :: r in RowsFor(rows, id) ==> ItemOf(r) in m.items)
      && (forall it :: it in m.items ==> it in ItemsOf(RowsFor(rows, id)))
      && (forall i, j :: 0 <= i < j < |m.items| ==>
            IndexOf(ItemsOf(RowsFor(rows, id)), m.items[i]) < IndexOf(ItemsOf(RowsFor(rows, id)), m.items[j]))
  {
    LoadModulesMatchesReference(rows);
    var rs := RowsFor(rows, id);
    assert |rs| > 0 && Get(LoadModules(rows), id) == Some(Expected(id, rs));
    DedupItems(rs, Get(LoadModules(rows), id).value.items);
  }

  lemma DedupItems(rs: seq<Record>, items: seq<Item>)
    requires items == Dedup(ItemsOf(rs))
    ensures Distinct(items)
    ensures forall r :: r in rs ==> ItemOf(r) in items
    ensures forall it :: it in items ==> it in ItemsOf(rs)
    ensures forall i, j :: 0 <= i < j < |items| ==> IndexOf(ItemsOf(rs), items[i]) < IndexOf(ItemsOf(rs), items[j])
  {
    forall r | r in rs
      ensures ItemOf(r) in items
    {
      var k :| 0 <= k < |rs| && rs[k] == r;
      assert ItemsOf(rs)[k] == ItemOf(r);
    }
    forall i, j | 0 <= i < j < |items|
      ensures IndexOf(ItemsOf(rs), items[i]) < IndexOf(ItemsOf(rs), items[j])
    {
      DedupKeepsFirstSeenOrder(ItemsOf(rs), i, j);
    }
  }

}

=== FILE: dicts.dfy ===
/** Python dictionaries as association lists. A Python `dict` remembers
    insertion order, and the notes file is written in that order, so a plain
    Dafny `map` is not enough: the list order here is the dict's iteration order. */
module Dicts {
  import opened Wrappers
  import opened Seqs

  type Dict<K, V> = seq<(K, V)>

  /** `list(d.keys())` */
  function Keys<K, V>(d: Dict<K, V>): (ks: seq<K>)
  {
    seq(|d|, i requires 0 <= i < |d| => d[i].0)
  }

  /** `list(d.values())` */
  function Values<K, V>(d: Dict<K, V>): (vs: seq<V>)
  {
    seq(|d|, i requires 0 <= i < |d| => d[i].1)
  }

  /** A dict never holds a key twice. */
  predicate WellFormed<K(==), V>(d: Dict<K, V>) {
    Distinct(Keys(d))
  }

  /** `d.get(k)`: the value of the first pair with key `k`. */
  function Get<K(==), V>(d: Dict<K, V>, k: K): (r: Option<V>)
    ensures r.Some? <==> k in Keys(d)
    ensures r.Some? ==> (k, r.value) in d
  {
    if k in Keys(d) then Some(d[IndexOf(Keys(d), k)].1) else None
  }

  /** `d[k] = v`: an existing key keeps its place, a new key goes last. */
  function Set<K(==,!new), V>(d: Dict<K, V>, k: K, v: V): (r: Dict<K, V>)
    ensures Keys(r) == if k in Keys(d) then Keys(d) else Keys(d) + [k]
    ensures Get(r, k) == Some(v)
    ensures forall k' :: k' != k ==> Get(r, k') == Get(d, k')
  {
    if k in Keys(d) then
      var i := IndexOf(Keys(d), k);
      var r := d[i := (k, v)];
      assert Keys(r) == Keys(d);
      forall k' | k' in Keys(d)
        ensures IndexOf(Keys(r), k') == IndexOf(Keys(d), k')
      {
      }
      r
    else
      var r := d + [(k, v)];
      assert Keys(r) == Keys(d) + [k];
      forall k' | k' in Keys(d)
        ensures IndexOf(Keys(r), k') == IndexOf(Keys(d), k')
      {
        IndexOfAppend(Keys(d), [k], k');
      }
      IndexOfAppend(Keys(d), [k], k);
      r
  }

  /** `del d[k]`: the first (in a dict, the only) pair with key `k` goes. */
  function Remove<K(==,!new), V>(d: Dict<K, V>, k: K): (r: Dict<K, V>)
    ensures Keys(r) == RemoveFirst(Keys(d), k)
    ensures forall k' :: k' != k ==> Get(r, k') == Get(d, k')
  {
    if k in Keys(d) then
      var i := IndexOf(Keys(d), k);
      var r := d[..i] + d[i + 1..];
      assert Keys(r) == Keys(d)[..i] + Keys(d)[i + 1..];
      forall k' | k' != k && k' in Keys(d)
        ensures k' in Keys(r) && r[IndexOf(Keys(r), k')] == d[IndexOf(Keys(d), k')]
      {
        var j := IndexOf(Keys(d), k');
        var j' := if j < i then j else j - 1;
        assert Keys(r)[j'] == k';
        IndexOfUnique(Keys(r), k', j');
      }
      r
    else d
  }

  lemma RemoveFromWellFormed<K(!new), V>(d: Dict<K, V>, k: K)
    requires WellFormed(d)
    ensures WellFormed(Remove(d, k))
    ensures Get(Remove(d, k), k) == None
  {
    RemoveFirstOfDistinct(Keys(d), k);
  }

  lemma KeysAppend<K, V>(a: Dict<K, V>, b: Dict<K, V>)
    ensures Keys(a + b) == Keys(a) + Keys(b)
  {
  }

  /** Assigning to the key of the last pair replaces that pair in place. */
  lemma SetLastKey<K(!new), V>(d: Dict<K, V>, k: K, v: V, w: V)
    requires k !in Keys(d)
    ensures Set(d + [(k, v)], k, w) == d + [(k, w)]
  {
    assert Keys(d + [(k, v)]) == Keys(d) + [k];
    IndexOfAppend(Keys(d), [k], k);
  }

  /** Assigning twice to a key is assigning the second value. */
  lemma SetTwice<K(!new), V>(d: Dict<K, V>, k: K, v: V, w: V)
    ensures Set(Set(d, k, v), k, w) == Set(d, k, w)
  {
    if k in Keys(d) {
      var i := IndexOf(Keys(d), k);
      assert Keys(Set(d, k, v)) == Keys(d);
    } else {
      assert Set(d, k, v) == d + [(k, v)];
      SetLastKey(d, k, v, w);
    }
  }

  /** Assigning a key the value it already has changes nothing. */
  lemma SetCurrent<K(!new), V>(d: Dict<K, V>, k: K)
    requires k in Keys(d)
    ensures Set(d, k, Get(d, k).value) == d
  {
    var i := IndexOf(Keys(d), k);
    assert d[i] == (k, Get(d, k).value);
  }

  /** Deleting the key that was added last gives back the dict before it. */
  lemma RemoveLast<K(!new), V>(d: Dict<K, V>, k: K, v: V)
    requires k !in Keys(d)
    ensures Remove(d + [(k, v)], k) == d
  {
    KeysAppend(d, [(k, v)]);
    IndexOfAppend(Keys(d), [k], k);
    var e := d + [(k, v)];
    assert Keys(e) == Keys(d) + [k];
    assert IndexOf(Keys(e), k) == |d|;
    assert e[..|d|] == d && e[|d| + 1..] == [];
  }
}

=== FILE: module_filter.dfy ===
/** The module list of the main window. `populate_module_entries` walks the
    catalog's IDs in order and keeps a module when it passes the character
    filter and the lower-cased search term occurs in its lower-cased display
    name "[ID] English name (character)". */
module ModuleFilter {
  import opened Seqs
  import opened Dicts
  import opened Text
  import opened Catalog

  /** The choice of the character combobox that turns the character filter off. */
  const AllCharacters: string := "All Characters"

  /** The label a module is listed under. */
  function DisplayName(id: string, m: Module): string {
    "[" + id + "] " + m.nameEn + " (" + m.character + ")"
  }

  /** The test a module must pass to be listed. */
  predicate Shown(id: string, m: Module, character: string, search: string) {
    && (character == AllCharacters || m.character == character)
    && Contains(Lower(DisplayName(id, m)), Lower(search))
  }

  /** `filtered_modules`: the catalog's modules that pass, in catalog order.
      (`populate_module_entries` iterates `list(modules.keys())` and looks each key up; in a
      dict that is the same as iterating its pairs.) */
  function Visible(cat: Catalog, character: string, search: string): (r: seq<Module>)
    ensures |r| <= |cat|
    ensures forall i :: 0 <= i < |r| ==> character == AllCharacters || r[i].character == character
    ensures IsSubsequence(r, Values(cat))
  {
    if |cat| == 0 then []
    else
      var rest := Visible(cat[1..], character, search);
      assert Values(cat)[1..] == Values(cat[1..]);
      if Shown(cat[0].0, cat[0].1, character, search) then
        [cat[0].1] + rest
      else
        SubsequenceCons(rest, Values(cat[1..]), cat[0].1);
        rest
  }

  /** The list is built as the loop of `populate_module_entries` builds it:
      walking the pairs in order and appending each module that passes. Together
      with `Visible([]) == []` this fixes the list entry by entry, repeats included. */
  lemma {:induction false} VisibleSnoc(cat: Catalog, id: string, m: Module, character: string, search: string)
    ensures Visible(cat + [(id, m)], character, search)
      == Visible(cat, character, search) + (if Shown(id, m, character, search) then [m] else [])
  {
    var tail := if Shown(id, m, character, search) then [m] else [];
    if |cat| == 0 {
      assert cat + [(id, m)] == [(id, m)] && [(id, m)][1..] == [];
    } else {
      assert (cat + [(id, m)])[0] == cat[0];
      assert (cat + [(id, m)])[1..] == cat[1..] + [(id, m)];
      VisibleSnoc(cat[1..], id, m, character, search);
      if Shown(cat[0].0, cat[0].1, character, search) {
        assert [cat[0].1] + (Visible(cat[1..], character, search) + tail)
          == ([cat[0].1] + Visible(cat[1..], character, search)) + tail;
      }
    }
  }

  /** A module that passes is listed. */
  lemma {:induction false} ShownIsVisible(cat: Catalog, character: string, search: string, i: nat)
    requires i < |cat| && Shown(cat[i].0, cat[i].1, character, search)
    ensures cat[i].1 in Visible(cat, character, search)
  {
    if i > 0 {
      assert cat[1..][i - 1] == cat[i];
      ShownIsVisible(cat[1..], character, search, i - 1);
    }
  }

  /** Every listed module is a catalog module that passes. */
  lemma {:induction false} VisibleIsShown(cat: Catalog, character: string, search: string, m: Module)
    requires m in Visible(cat, character, search)
    ensures exists i :: 0 <= i < |cat| && cat[i].1 == m && Shown(cat[i].0, m, character, search)
  {
    if |cat| > 0 && !(Shown(cat[0].0, cat[0].1, character, search) && m == cat[0].1) {
      VisibleIsShown(cat[1..], character, search, m);
      var i :| 0 <= i < |cat[1..]| && cat[1..][i].1 == m && Shown(cat[1..][i].0, m, character, search);
      assert cat[i + 1] == cat[1..][i];
    }
  }

  /** With the character filter off and an empty search, every module is listed, in catalog order. */
  lemma {:induction false} ShowAll(cat: Catalog)
    ensures Visible(cat, AllCharacters, "") == Values(cat)
  {
    if |cat| > 0 {
      ContainsEmpty(Lower(DisplayName(cat[0].0, cat[0].1)));
      ShowAll(cat[1..]);
      assert Values(cat) == [cat[0].1] + Values(cat[1..]);
    }
  }

  /** The search ignores letter case. */
  lemma {:induction false} SearchIgnoresCase(cat: Catalog, character: string, search: string)
    ensures Visible(cat, character, search) == Visible(cat, character, Lower(search))
  {
    LowerIdempotent(search);
    if |cat| > 0 {
      SearchIgnoresCase(cat[1..], character, search);
    }
  }

  /** Typing more of a search term only narrows the list: when the old term occurs
      in the new one, the new list is a subsequence of the old. */
  lemma {:induction false} LongerSearchNarrows(cat: Catalog, character: string, search: string, longer: string)
    requires Contains(Lower(longer), Lower(search))
    ensures IsSubsequence(Visible(cat, character, longer), Visible(cat, character, search))
  {
    if |cat| > 0 {
      var id, m := cat[0].0, cat[0].1;
      var a := Visible(cat[1..], character, longer);
      var b := Visible(cat[1..], character, search);
      LongerSearchNarrows(cat[1..], character, search, longer);
      if Shown(id, m, character, longer) {
        ContainsTransitive(Lower(DisplayName(id, m)), Lower(longer), Lower(search));
        assert ([m] + a)[1..] == a && ([m] + b)[1..] == b;
      } else if Shown(id, m, character, search) {
        SubsequenceCons(a, b, m);
      }
    }
  }

  /** The IDs of the listed modules. */
  function IdsOfModules(ms: seq<Module>): (ids: seq<string>)
    ensures |ids| == |ms|
  {
    seq(|ms|, i requires 0 <= i < |ms| => ms[i].id)
  }

  /** At start-up the unfiltered list shows one module per ID of the catalog
      file, in the order the IDs first appear there. */
  lemma StartupListInFileOrder(rows: seq<Record>)
    ensures IdsOfModules(Visible(LoadModules(rows), AllCharacters, "")) == Dedup(IdsOf(rows))
  {
    var cat := LoadModules(rows);
    ShowAll(cat);
    forall i | 0 <= i < |cat| ensures Values(cat)[i].id == Keys(cat)[i] {
      IndexOfUnique(Keys(cat), cat[i].0, i);
      assert Get(cat, cat[i].0).value == cat[i].1;
    }
  }
}

=== FILE: notes.dfy ===
/** The notes store. A note is a named, ordered list of entries, each pointing
    at a module and an item with a free-text description. The notes window keeps
    the notes in a dict (`current_notes_data`) and, beside it, the list of note
    names in the order they appeared (`notes_order`); the notes file is a
    headerless csv with one (note name, module ID, item ID, description) row per
    entry, rewritten in full after every change. */
module Notes {
  import opened Wrappers
  import opened Seqs
  import opened Dicts
  import opened Text

  datatype Entry = Entry(moduleId: string, itemId: string, description: string)

  /** `current_notes_data` and `notes_order`. */
  datatype NoteStore = NoteStore(notes: Dict<string, seq<Entry>>, order: seq<string>)

  /** One line of the notes file, split into fields by the csv reader. */
  type Row = seq<string>

  datatype NoteError =
    | TooManyFields(row: Row)   // unpacking a row of more than four fields raises ValueError
    | MissingField              // "All fields are required."
    | UnknownNote               // indexing the dict with a name it lacks raises KeyError
    | NoSuchEntry               // indexing or popping past the end of a note raises IndexError
    | NameExists                // "A note with the name ... already exists."
    | Cancelled                 // the name dialog was cancelled or left blank: nothing happens

  /** The invariant the window keeps: the order list is the dict's key list. */
  predicate Valid(s: NoteStore) {
    WellFormed(s.notes) && s.order == Keys(s.notes)
  }

  const Empty: NoteStore := NoteStore([], [])

  /** The entries of note `name`; `[]` when there is no such note. */
  function EntriesOf(s: NoteStore, name: string): seq<Entry> {
    match Get(s.notes, name)
    case Some(es) => es
    case None => []
  }

  /** Every note holds at least one entry. */
  predicate NoEmptyNotes(s: NoteStore) {
    forall name :: name in Keys(s.notes) ==> EntriesOf(s, name) != []
  }

  /** Append an entry to a note, first creating the note (empty, at the end of
      the order) if there is none by that name. The loop body of `load_notes`
      and the add branch of the item dialog's save both do exactly this. */
  function AddEntry(s: NoteStore, name: string, e: Entry): (r: NoteStore)
    requires Valid(s)
    ensures Valid(r)
    ensures r.order == if name in s.order then s.order else s.order + [name]
    ensures EntriesOf(r, name) == EntriesOf(s, name) + [e]
    ensures forall k :: k != name ==> Get(r.notes, k) == Get(s.notes, k)
  {
    var s1 := if name !in Keys(s.notes) then NoteStore(Set(s.notes, name, []), s.order + [name]) else s;
    NoteStore(Set(s1.notes, name, EntriesOf(s1, name) + [e]), s1.order)
  }

  // ---------------------------------------------------------------------------
  // Loading: `load_notes`

  function EntryOf(row: Row): Entry
    requires |row| == 4
  {
    Entry(row[1], row[2], row[3])
  }

  /** A loading state that can arise: a valid store without empty notes, or an error. */
  predicate Loadable(acc: Result<NoteStore, NoteError>) {
    acc.Success? ==> Valid(acc.value) && NoEmptyNotes(acc.value)
  }

  /** One pass of the loop in `load_notes`: a short row is skipped, a long row
      aborts the load, a four-field row adds its entry. */
  function LoadRow(acc: Result<NoteStore, NoteError>, row: Row): (r: Result<NoteStore, NoteError>)
    requires Loadable(acc)
    ensures Loadable(r)
  {
    if acc.Failure? then acc
    else if |row| < 4 then acc
    else if |row| > 4 then Failure(TooManyFields(row))
    else Success(AddEntry(acc.value, row[0], EntryOf(row)))
  }

  function LoadFrom(acc: Result<NoteStore, NoteError>, rows: seq<Row>): (r: Result<NoteStore, NoteError>)
    requires Loadable(acc)
    ensures Loadable(r)
  {
    if |rows| == 0 then acc
    else LoadRow(LoadFrom(acc, rows[..|rows| - 1]), rows[|rows| - 1])
  }

  /** `load_notes` on the rows of the notes file (no rows when there is no file). */
  function LoadNotes(rows: seq<Row>): (r: Result<NoteStore, NoteError>)
    ensures r.Success? ==> Valid(r.value) && NoEmptyNotes(r.value)
  {
    LoadFrom(Success(Empty), rows)
  }

  // Reference description of what `load_notes` returns

  /** The note names of the four-field rows, in file order, repeats included. */
  function NamesOf(rows: seq<Row>): seq<string> {
    if |rows| == 0 then []
    else
      var last := rows[|rows| - 1];
      NamesOf(rows[..|rows| - 1]) + (if |last| == 4 then [last[0]] else [])
  }

  /** The entries of the four-field rows for note `name`, in file order. */
  function EntriesFor(rows: seq<Row>, name: string): seq<Entry> {
    if |rows| == 0 then []
    else
      var last := rows[|rows| - 1];
      EntriesFor(rows[..|rows| - 1], name) + (if |last| == 4 && last[0] == name then [EntryOf(last)] else [])
  }

  /** No row has more than four fields before position `n`. */
  predicate NoLongRowBefore(rows: seq<Row>, n: int) {
    forall j :: 0 <= j < n && j < |rows| ==> |rows[j]| <= 4
  }

  lemma {:induction false} NamesOfEntriesFor(rows: seq<Row>, name: string)
    ensures name in NamesOf(rows) <==> EntriesFor(rows, name) != []
  {
    if |rows| > 0 {
      NamesOfEntriesFor(rows[..|rows| - 1], name);
    }
  }

  /** What the load of `rows` gives, described without the fold. */
  ghost predicate LoadMatchesReference(rows: seq<Row>) {
    var r := LoadNotes(rows);
    && (r.Failure? <==> !NoLongRowBefore(rows, |rows|))
    && (r.Failure? ==> exists i :: 0 <= i < |rows| && r.error == TooManyFields(rows[i])
                                   && |rows[i]| > 4 && NoLongRowBefore(rows, i))
    && (r.Success? ==> r.value.order == Dedup(NamesOf(rows))
                       && forall name :: EntriesOf(r.value, name) == EntriesFor(rows, name))
  }

  lemma LoadSnoc(p: seq<Row>, row: Row)
    ensures LoadNotes(p + [row]) == LoadRow(LoadNotes(p), row)
    ensures NamesOf(p + [row]) == NamesOf(p) + (if |row| == 4 then [row[0]] else [])
    ensures forall name ::
      EntriesFor(p + [row], name) == EntriesFor(p, name) + (if |row| == 4 && row[0] == name then [EntryOf(row)] else [])
  {
    assert (p + [row])[..|p|] == p;
  }

  lemma ReferenceOnSuccess(rows: seq<Row>)
    requires LoadNotes(rows).Success? && NoLongRowBefore(rows, |rows|)
    requires LoadNotes(rows).value.order == Dedup(NamesOf(rows))
    requires forall name :: EntriesOf(LoadNotes(rows).value, name) == EntriesFor(rows, name)
    ensures LoadMatchesReference(rows)
  {
  }

  lemma LoadStepFailed(p: seq<Row>, row: Row)
    requires LoadMatchesReference(p) && LoadNotes(p).Failure?
    ensures LoadMatchesReference(p + [row])
  {
    var rows := p + [row];
    LoadSnoc(p, row);
    assert LoadNotes(rows) == LoadNotes(p);
    var i :| 0 <= i < |p| && LoadNotes(p).error == TooManyFields(p[i]) && |p[i]| > 4 && NoLongRowBefore(p, i);
    assert rows[i] == p[i];
    assert NoLongRowBefore(rows, i);
  }

  lemma LoadStepShort(p: seq<Row>, row: Row)
    requires LoadMatchesReference(p) && LoadNotes(p).Success? && |row| < 4
    ensures LoadMatchesReference(p + [row])
  {
    var rows := p + [row];
    LoadSnoc(p, row);
    assert LoadNotes(rows) == LoadNotes(p);
    assert NamesOf(rows) == NamesOf(p);
    assert NoLongRowBefore(rows, |rows|) by {
      forall j | 0 <= j < |rows| ensures |rows[j]| <= 4 {
        if j < |p| { assert rows[j] == p[j]; }
      }
    }
    forall name ensures EntriesOf(LoadNotes(rows).value, name) == EntriesFor(rows, name) {
      assert EntriesFor(rows, name) == EntriesFor(p, name);
    }
  }

  lemma LoadStepLong(p: seq<Row>, row: Row)
    requires LoadMatchesReference(p) && LoadNotes(p).Success? && |row| > 4
    ensures LoadMatchesReference(p + [row])
  {
    var rows := p + [row];
    LoadSnoc(p, row);
    assert LoadNotes(rows) == Failure(TooManyFields(rows[|p|]));
    assert NoLongRowBefore(rows, |p|);
  }

  lemma EntryStepEntries(p: seq<Row>, row: Row, s: NoteStore)
    requires Valid(s) && |row| == 4
    requires forall name :: EntriesOf(s, name) == EntriesFor(p, name)
    ensures forall name :: EntriesOf(AddEntry(s, row[0], EntryOf(row)), name) == EntriesFor(p + [row], name)
  {
    LoadSnoc(p, row);
    var r := AddEntry(s, row[0], EntryOf(row));
    forall name ensures EntriesOf(r, name) == EntriesFor(p + [row], name) {
      if name != row[0] {
        assert Get(r.notes, name) == Get(s.notes, name);
      }
    }
  }

  lemma LoadStepEntry(p: seq<Row>, row: Row)
    requires LoadMatchesReference(p) && LoadNotes(p).Success? && |row| == 4
    ensures LoadMatchesReference(p + [row])
  {
    var rows := p + [row];
    var s := LoadNotes(p).value;
    LoadSnoc(p, row);
    var r := AddEntry(s, row[0], EntryOf(row));
    assert LoadNotes(rows) == Success(r);
    assert NoLongRowBefore(rows, |rows|) by {
      forall j | 0 <= j < |rows| ensures |rows[j]| <= 4 {
        if j < |p| { assert rows[j] == p[j]; }
      }
    }
    DedupSnoc(NamesOf(p), row[0]);
    EntryStepEntries(p, row, s);
    ReferenceOnSuccess(rows);
  }

  /** `load_notes` keeps each four-field row as an entry of its note, in file
      order; lists each note name once, in first-seen order; skips shorter rows;
      and fails on the first row with more than four fields. */
  lemma {:induction false} LoadNotesMatchesReference(rows: seq<Row>)
    ensures LoadMatchesReference(rows)
  {
    if |rows| > 0 {
      var p := rows[..|rows| - 1];
      var row := rows[|rows| - 1];
      assert rows == p + [row];
      LoadNotesMatchesReference(p);
      if LoadNotes(p).Failure? {
        LoadStepFailed(p, row);
      } else if |row| < 4 {
        LoadStepShort(p, row);
      } else if |row| > 4 {
        LoadStepLong(p, row);
      } else {
        LoadStepEntry(p, row);
      }
    }
  }

  // ---------------------------------------------------------------------------
  // Saving: `save_all_notes` and `save_note`

  function RowOf(name: string, e: Entry): (row: Row) {
    [name, e.moduleId, e.itemId, e.description]
  }

  /** The rows written for one note. */
  function NoteRows(name: string, es: seq<Entry>): seq<Row> {
    seq(|es|, i requires 0 <= i < |es| => RowOf(name, es[i]))
  }

  /** `save_all_notes`: the entries of every note, note by note in dict order. */
  function SaveAllNotes(notes: Dict<string, seq<Entry>>): (rows: seq<Row>)
    ensures forall i :: 0 <= i < |rows| ==> |rows[i]| == 4
  {
    if |notes| == 0 then [] else NoteRows(notes[0].0, notes[0].1) + SaveAllNotes(notes[1..])
  }

  /** `save_note`: append one row to the notes file. Loading the longer file
      is loading the old one and then adding the entry. */
  function SaveNote(file: seq<Row>, name: string, moduleId: string, itemId: string, desc: string): (r: seq<Row>)
    ensures LoadNotes(r) == match LoadNotes(file)
      case Success(s) => Success(AddEntry(s, name, Entry(moduleId, itemId, desc)))
      case Failure(err) => Failure(err)
  {
    var r := file + [[name, moduleId, itemId, desc]];
    assert r[..|file|] == file;
    r
  }

  /** The notes that survive a save and reload: those with at least one entry. */
  function NonEmpty(notes: Dict<string, seq<Entry>>): (r: Dict<string, seq<Entry>>)
    ensures forall i :: 0 <= i < |r| ==> r[i] in notes && r[i].1 != []
  {
    if |notes| == 0 then []
    else (if notes[0].1 == [] then [] else [notes[0]]) + NonEmpty(notes[1..])
  }

  lemma {:induction false} LoadFromAppend(acc: Result<NoteStore, NoteError>, a: seq<Row>, b: seq<Row>)
    requires Loadable(acc)
    ensures LoadFrom(acc, a + b) == LoadFrom(LoadFrom(acc, a), b)
  {
    if |b| == 0 {
      assert a + b == a;
    } else {
      var b' := b[..|b| - 1];
      var last := b[|b| - 1];
      assert (a + b)[..|a + b| - 1] == a + b' && (a + b)[|a + b| - 1] == last;
      LoadFromAppend(acc, a, b');
      assert LoadFrom(acc, a + b) == LoadRow(LoadFrom(acc, a + b'), last);
      assert LoadFrom(LoadFrom(acc, a), b) == LoadRow(LoadFrom(LoadFrom(acc, a), b'), last);
    }
  }

  lemma AddEntryToNewNote(s: NoteStore, name: string, e: Entry)
    requires Valid(s) && name !in Keys(s.notes)
    ensures AddEntry(s, name, e) == NoteStore(s.notes + [(name, [e])], s.order + [name])
  {
    var s1 := NoteStore(Set(s.notes, name, []), s.order + [name]);
    assert s1.notes == s.notes + [(name, [])];
    assert EntriesOf(s1, name) + [e] == [e];
    SetLastKey(s.notes, name, [], [e]);
  }

  lemma AddEntryToLastNote(s: NoteStore, name: string, es: seq<Entry>, e: Entry)
    requires Valid(s) && name !in Keys(s.notes)
    ensures Valid(NoteStore(s.notes + [(name, es)], s.order + [name]))
    ensures AddEntry(NoteStore(s.notes + [(name, es)], s.order + [name]), name, e)
      == NoteStore(s.notes + [(name, es + [e])], s.order + [name])
  {
    var s0 := NoteStore(s.notes + [(name, es)], s.order + [name]);
    assert s0.notes == Set(s.notes, name, es);
    SetLastKey(s.notes, name, es, es + [e]);
  }

  lemma LoadNoteRowsSnoc(acc: Result<NoteStore, NoteError>, name: string, es: seq<Entry>, e: Entry)
    requires Loadable(acc)
    ensures LoadFrom(acc, NoteRows(name, es + [e])) == LoadRow(LoadFrom(acc, NoteRows(name, es)), RowOf(name, e))
  {
    var rows := NoteRows(name, es + [e]);
    assert rows[..|rows| - 1] == NoteRows(name, es);
  }

  /** Loading one note's rows into a store that lacks the note appends it, unless it has no entries. */
  lemma {:induction false} LoadOneNote(s: NoteStore, name: string, es: seq<Entry>)
    requires Valid(s) && NoEmptyNotes(s) && name !in Keys(s.notes)
    ensures LoadFrom(Success(s), NoteRows(name, es))
      == Success(if es == [] then s else NoteStore(s.notes + [(name, es)], s.order + [name]))
  {
    if es == [] {
      assert NoteRows(name, es) == [];
    } else {
      var p := es[..|es| - 1];
      var e := es[|es| - 1];
      assert es == p + [e];
      LoadNoteRowsSnoc(Success(s), name, p, e);
      LoadOneNote(s, name, p);
      var before := if p == [] then s else NoteStore(s.notes + [(name, p)], s.order + [name]);
      assert LoadFrom(Success(s), NoteRows(name, p)) == Success(before);
      assert |RowOf(name, e)| == 4 && RowOf(name, e)[0] == name && EntryOf(RowOf(name, e)) == e;
      if p == [] {
        AddEntryToNewNote(s, name, e);
      } else {
        AddEntryToLastNote(s, name, p, e);
      }
      assert LoadRow(Success(before), RowOf(name, e)) == Success(AddEntry(before, name, e));
    }
  }

  lemma SaveAllAppend(a: Dict<string, seq<Entry>>, b: Dict<string, seq<Entry>>)
    ensures SaveAllNotes(a + b) == SaveAllNotes(a) + SaveAllNotes(b)
  {
    if |a| > 0 {
      assert (a + b)[1..] == a[1..] + b;
      SaveAllAppend(a[1..], b);
    } else {
      assert a + b == b;
    }
  }

  /** Appending a new, non-empty note keeps a store valid and without empty notes. */
  lemma ExtendStore(s: NoteStore, name: string, es: seq<Entry>)
    requires Valid(s) && NoEmptyNotes(s) && name !in Keys(s.notes) && es != []
    ensures Valid(NoteStore(s.notes + [(name, es)], s.order + [name]))
    ensures NoEmptyNotes(NoteStore(s.notes + [(name, es)], s.order + [name]))
  {
    var s' := NoteStore(s.notes + [(name, es)], s.order + [name]);
    assert s'.notes == Set(s.notes, name, es);
    forall k | k in Keys(s'.notes) ensures EntriesOf(s', k) != [] {
      if k != name {
        assert Get(s'.notes, k) == Get(s.notes, k);
      }
    }
  }

  lemma NonEmptyCons(notes: Dict<string, seq<Entry>>)
    requires |notes| > 0
    ensures NonEmpty(notes) == (if notes[0].1 == [] then [] else [notes[0]]) + NonEmpty(notes[1..])
    ensures Keys(NonEmpty(notes)) == (if notes[0].1 == [] then [] else [notes[0].0]) + Keys(NonEmpty(notes[1..]))
  {
    KeysAppend(if notes[0].1 == [] then [] else [notes[0]], NonEmpty(notes[1..]));
  }

  /** The tail of a dict is a dict none of whose keys is the head's key. */
  lemma WellFormedTail<V>(d: Dict<string, V>)
    requires WellFormed(d) && |d| > 0
    ensures WellFormed(d[1..])
    ensures forall i :: 0 <= i < |d[1..]| ==> d[1..][i].0 != d[0].0
  {
    assert Keys(d[1..]) == Keys(d)[1..];
    forall i | 0 <= i < |d[1..]| ensures d[1..][i].0 != d[0].0 {
      assert Keys(d)[i + 1] == d[1..][i].0 && Keys(d)[0] == d[0].0;
    }
  }

  /** The store after loading the rows of one more note that it lacks. */
  function Extend(s: NoteStore, name: string, es: seq<Entry>): NoteStore {
    if es == [] then s else NoteStore(s.notes + [(name, es)], s.order + [name])
  }

  /** Loading the saved rows of a dict is loading its first note, then the rest. */
  lemma SavedStepLoad(s: NoteStore, notes: Dict<string, seq<Entry>>)
    requires Valid(s) && NoEmptyNotes(s) && |notes| > 0 && notes[0].0 !in s.order
    requires Loadable(Success(Extend(s, notes[0].0, notes[0].1)))
    ensures LoadFrom(Success(s), SaveAllNotes(notes))
      == LoadFrom(Success(Extend(s, notes[0].0, notes[0].1)), SaveAllNotes(notes[1..]))
  {
    var name, es := notes[0].0, notes[0].1;
    assert SaveAllNotes(notes) == NoteRows(name, es) + SaveAllNotes(notes[1..]);
    LoadFromAppend(Success(s), NoteRows(name, es), SaveAllNotes(notes[1..]));
    LoadOneNote(s, name, es);
  }

  lemma SavedStepShape(s: NoteStore, notes: Dict<string, seq<Entry>>)
    requires Valid(s) && NoEmptyNotes(s) && WellFormed(notes) && |notes| > 0
    requires forall i :: 0 <= i < |notes| ==> notes[i].0 !in s.order
    ensures var s' := Extend(s, notes[0].0, notes[0].1);
      && Valid(s') && NoEmptyNotes(s') && WellFormed(notes[1..])
      && (forall i :: 0 <= i < |notes[1..]| ==> notes[1..][i].0 !in s'.order)
  {
    WellFormedTail(notes);
    if notes[0].1 != [] {
      ExtendStore(s, notes[0].0, notes[0].1);
    }
  }

  lemma SavedStepResult(s: NoteStore, notes: Dict<string, seq<Entry>>)
    requires |notes| > 0
    ensures var s' := Extend(s, notes[0].0, notes[0].1);
      && s'.notes + NonEmpty(notes[1..]) == s.notes + NonEmpty(notes)
      && s'.order + Keys(NonEmpty(notes[1..])) == s.order + Keys(NonEmpty(notes))
  {
    NonEmptyCons(notes);
    var pre := if notes[0].1 == [] then [] else [notes[0]];
    var preKeys := if notes[0].1 == [] then [] else [notes[0].0];
    assert Extend(s, notes[0].0, notes[0].1) == NoteStore(s.notes + pre, s.order + preKeys);
    AppendAssoc(s.notes, pre, NonEmpty(notes[1..]));
    AppendAssoc(s.order, preKeys, Keys(NonEmpty(notes[1..])));
  }

  lemma AppendAssoc<T>(a: seq<T>, b: seq<T>, c: seq<T>)
    ensures (a + b) + c == a + (b + c)
  {
  }

  lemma {:induction false} LoadSavedInto(s: NoteStore, notes: Dict<string, seq<Entry>>)
    requires Valid(s) && NoEmptyNotes(s) && WellFormed(notes)
    requires forall i :: 0 <= i < |notes| ==> notes[i].0 !in s.order
    ensures LoadFrom(Success(s), SaveAllNotes(notes))
      == Success(NoteStore(s.notes + NonEmpty(notes), s.order + Keys(NonEmpty(notes))))
    decreases |notes|
  {
    if |notes| == 0 {
      assert s.notes + [] == s.notes && s.order + [] == s.order;
    } else {
      SavedStepShape(s, notes);
      SavedStepLoad(s, notes);
      SavedStepResult(s, notes);
      LoadSavedInto(Extend(s, notes[0].0, notes[0].1), notes[1..]);
    }
  }

  /** Round trip: writing the notes and loading the file gives back every note
      that has entries, with the same entries in the same order; the order list
      is those notes' names in dict order. Notes without entries write no rows
      and are gone after the reload. */
  lemma SaveThenLoad(notes: Dict<string, seq<Entry>>)
    requires WellFormed(notes)
    ensures LoadNotes(SaveAllNotes(notes)) == Success(NoteStore(NonEmpty(notes), Keys(NonEmpty(notes))))
  {
    var ne := NonEmpty(notes);
    assert Empty.notes == [] && Empty.order == [];
    assert Valid(Empty) && NoEmptyNotes(Empty);
    LoadSavedInto(Empty, notes);
    assert LoadNotes(SaveAllNotes(notes)) == Success(NoteStore([] + ne, [] + Keys(ne)));
    assert [] + ne == ne && [] + Keys(ne) == Keys(ne);
  }

  /** A store with no empty notes reloads from its own file unchanged. */
  lemma SavedStoreReloads(s: NoteStore)
    requires Valid(s) && NoEmptyNotes(s)
    ensures LoadNotes(SaveAllNotes(s.notes)) == Success(s)
  {
    forall i | 0 <= i < |s.notes| ensures s.notes[i].1 != [] {
      StoredEntries(s, i);
    }
    NonEmptyKeepsAll(s.notes);
    SaveThenLoad(s.notes);
  }

  /** In a valid store the `i`th pair holds the entries of the `i`th name. */
  lemma StoredEntries(s: NoteStore, i: nat)
    requires Valid(s) && i < |s.notes|
    ensures s.notes[i].0 == s.order[i] && s.notes[i].1 == EntriesOf(s, s.order[i])
  {
    IndexOfUnique(Keys(s.notes), s.notes[i].0, i);
  }

  lemma {:induction false} NonEmptyKeepsAll(notes: Dict<string, seq<Entry>>)
    requires forall i :: 0 <= i < |notes| ==> notes[i].1 != []
    ensures NonEmpty(notes) == notes
  {
    if |notes| > 0 {
      NonEmptyKeepsAll(notes[1..]);
    }
  }

  // ---------------------------------------------------------------------------
  // What a reload followed by a rewrite does to the file

  /** The notes of `names`, each with the entries the four-field rows give it. */
  function Regrouped(rows: seq<Row>, names: seq<string>): Dict<string, seq<Entry>> {
    seq(|names|, i requires 0 <= i < |names| => (names[i], EntriesFor(rows, names[i])))
  }

  /** The loaded dict pairs each name, in first-seen order, with its rows' entries. */
  lemma LoadedNotesRegrouped(rows: seq<Row>)
    requires LoadNotes(rows).Success?
    ensures LoadNotes(rows).value.notes == Regrouped(rows, Dedup(NamesOf(rows)))
  {
    LoadNotesMatchesReference(rows);
    var s := LoadNotes(rows).value;
    var g := Regrouped(rows, Dedup(NamesOf(rows)));
    assert |s.notes| == |g|;
    forall i | 0 <= i < |g| ensures s.notes[i] == g[i] {
      StoredEntries(s, i);
    }
  }

  /** The file that `save_all_notes` writes after a load holds every entry of the
      four-field rows, but grouped note by note, the notes in first-seen order. */
  lemma LoadThenSave(rows: seq<Row>)
    requires LoadNotes(rows).Success?
    ensures SaveAllNotes(LoadNotes(rows).value.notes) == SaveAllNotes(Regrouped(rows, Dedup(NamesOf(rows))))
  {
    LoadedNotesRegrouped(rows);
  }

  lemma LoadEntryRow(p: seq<Row>, name: string, e: Entry)
    requires LoadNotes(p).Success?
    ensures LoadNotes(p + [RowOf(name, e)]) == Success(AddEntry(LoadNotes(p).value, name, e))
  {
    LoadSnoc(p, RowOf(name, e));
  }

  lemma AddEntryToFirstOfTwo(a: string, b: string, x: Entry, y: Entry, z: Entry)
    requires a != b
    ensures Valid(NoteStore([(a, [x]), (b, [y])], [a, b]))
    ensures AddEntry(NoteStore([(a, [x]), (b, [y])], [a, b]), a, z) == NoteStore([(a, [x, z]), (b, [y])], [a, b])
  {
    var s := NoteStore([(a, [x]), (b, [y])], [a, b]);
    assert Keys(s.notes) == [a, b];
    assert IndexOf(Keys(s.notes), a) == 0;
    assert EntriesOf(s, a) + [z] == [x, z];
    assert Set(s.notes, a, [x, z]) == s.notes[0 := (a, [x, z])];
  }

  lemma NoteRowsPair(name: string, x: Entry, z: Entry)
    ensures NoteRows(name, [x, z]) == [RowOf(name, x), RowOf(name, z)]
    ensures NoteRows(name, [x]) == [RowOf(name, x)]
  {
  }

  lemma SaveTwoNotes(a: string, b: string, x: Entry, y: Entry, z: Entry)
    ensures SaveAllNotes([(a, [x, z]), (b, [y])]) == [RowOf(a, x), RowOf(a, z), RowOf(b, y)]
  {
    var n: Dict<string, seq<Entry>> := [(a, [x, z]), (b, [y])];
    assert n[1..] == [(b, [y])] && n[1..][1..] == [];
    NoteRowsPair(a, x, z);
    NoteRowsPair(b, y, y);
    assert SaveAllNotes(n[1..][1..]) == [];
    assert SaveAllNotes(n[1..]) == [RowOf(b, y)];
  }

  lemma LoadOneRow(a: string, x: Entry)
    ensures LoadNotes([RowOf(a, x)]) == Success(NoteStore([(a, [x])], [a]))
  {
    assert [] + [RowOf(a, x)] == [RowOf(a, x)];
    assert LoadNotes([]) == Success(Empty);
    LoadEntryRow([], a, x);
    AddEntryToNewNote(Empty, a, x);
    assert Empty.notes + [(a, [x])] == [(a, [x])] && Empty.order + [a] == [a];
  }

  lemma AddSecondNote(a: string, b: string, x: Entry, y: Entry)
    requires a != b
    ensures Valid(NoteStore([(a, [x])], [a]))
    ensures AddEntry(NoteStore([(a, [x])], [a]), b, y) == NoteStore([(a, [x]), (b, [y])], [a, b])
  {
    var s1 := NoteStore([(a, [x])], [a]);
    assert Keys(s1.notes) == [a];
    AddEntryToNewNote(s1, b, y);
    assert s1.notes + [(b, [y])] == [(a, [x]), (b, [y])] && s1.order + [b] == [a, b];
  }

  lemma LoadTwoRows(a: string, b: string, x: Entry, y: Entry)
    requires a != b
    ensures LoadNotes([RowOf(a, x), RowOf(b, y)]) == Success(NoteStore([(a, [x]), (b, [y])], [a, b]))
  {
    assert [RowOf(a, x)] + [RowOf(b, y)] == [RowOf(a, x), RowOf(b, y)];
    LoadOneRow(a, x);
    LoadEntryRow([RowOf(a, x)], b, y);
    AddSecondNote(a, b, x, y);
  }

  lemma LoadInterleaved(a: string, b: string, x: Entry, y: Entry, z: Entry)
    requires a != b
    ensures LoadNotes([RowOf(a, x), RowOf(b, y), RowOf(a, z)])
      == Success(NoteStore([(a, [x, z]), (b, [y])], [a, b]))
  {
    var p := [RowOf(a, x), RowOf(b, y)];
    assert p + [RowOf(a, z)] == [RowOf(a, x), RowOf(b, y), RowOf(a, z)];
    LoadTwoRows(a, b, x, y);
    LoadEntryRow(p, a, z);
    AddEntryToFirstOfTwo(a, b, x, y, z);
  }

  /** Entries of two notes that alternate in the file do not keep their places:
      after a load and a rewrite both rows of note `a` come before the row of note `b`. */
  lemma InterleavedNotesRegroup(a: string, b: string, x: Entry, y: Entry, z: Entry)
    requires a != b
    ensures var rows := [RowOf(a, x), RowOf(b, y), RowOf(a, z)];
      && LoadNotes(rows).Success?
      && SaveAllNotes(LoadNotes(rows).value.notes) == [RowOf(a, x), RowOf(a, z), RowOf(b, y)]
      && SaveAllNotes(LoadNotes(rows).value.notes) != rows
  {
    LoadInterleaved(a, b, x, y, z);
    SaveTwoNotes(a, b, x, y, z);
    assert RowOf(a, z)[0] != RowOf(b, y)[0];
  }

  // ---------------------------------------------------------------------------
  // The notes window: saving the item dialog, a new note, deleting an entry

  /** Which button opened the item dialog; an edit carries the entry's position. */
  datatype Mode = AddMode | EditMode(index: nat)

  /** A text field that is empty once stripped. */
  predicate Blank(field: string) {
    forall k :: 0 <= k < |field| ==> IsSpace(field[k])
  }

  /** A combobox whose selection maps to no ID, or to an empty one. */
  predicate Unset(id: Option<string>) {
    id.None? || id.value == ""
  }

  /** `current_notes_data[name][index] = entry`. */
  function EditEntry(s: NoteStore, name: string, index: nat, e: Entry): (r: Result<NoteStore, NoteError>)
    requires Valid(s)
    ensures r.Success? <==> name in s.order && index < |EntriesOf(s, name)|
    ensures r.Failure? ==> r.error == if name in s.order then NoSuchEntry else UnknownNote
    ensures r.Success? ==> && Valid(r.value) && r.value.order == s.order
                           && EntriesOf(r.value, name) == EntriesOf(s, name)[index := e]
                           && forall k :: k != name ==> Get(r.value.notes, k) == Get(s.notes, k)
  {
    if name !in s.order then Failure(UnknownNote)
    else if index >= |EntriesOf(s, name)| then Failure(NoSuchEntry)
    else Success(NoteStore(Set(s.notes, name, EntriesOf(s, name)[index := e]), s.order))
  }

  /** `on_save` of the item dialog, before the file is rewritten: the stripped
      name and description and both selected IDs must all be non-empty; then
      the entry is appended (add) or put in place of the edited one (edit). */
  function OnSave(s: NoteStore, mode: Mode, nameField: string, moduleId: Option<string>,
                  itemId: Option<string>, descField: string): (r: Result<NoteStore, NoteError>)
    requires Valid(s)
    ensures r == Failure(MissingField)
      <==> Blank(nameField) || Unset(moduleId) || Unset(itemId) || Blank(descField)
    ensures r.Success? ==> Valid(r.value)
    ensures mode.AddMode? && r != Failure(MissingField) ==>
      && r.Success? && r.value.order == (if Strip(nameField) in s.order then s.order else s.order + [Strip(nameField)])
      && EntriesOf(r.value, Strip(nameField))
           == EntriesOf(s, Strip(nameField)) + [Entry(moduleId.value, itemId.value, Strip(descField))]
    ensures mode.EditMode? && r != Failure(MissingField) ==>
      && (r.Success? <==> Strip(nameField) in s.order && mode.index < |EntriesOf(s, Strip(nameField))|)
      && (r.Failure? ==> r.error == if Strip(nameField) in s.order then NoSuchEntry else UnknownNote)
    ensures mode.EditMode? && r.Success? ==>
      && r.value.order == s.order
      && mode.index < |EntriesOf(s, Strip(nameField))|
      && EntriesOf(r.value, Strip(nameField))
           == EntriesOf(s, Strip(nameField))[mode.index := Entry(moduleId.value, itemId.value, Strip(descField))]
    ensures r.Success? ==> forall k :: k != Strip(nameField) ==> Get(r.value.notes, k) == Get(s.notes, k)
  {
    var name := Strip(nameField);
    var desc := Strip(descField);
    if name == "" || Unset(moduleId) || Unset(itemId) || desc == "" then Failure(MissingField)
    else
      var e := Entry(moduleId.value, itemId.value, desc);
      match mode
      case AddMode => Success(AddEntry(s, name, e))
      case EditMode(i) => EditEntry(s, name, i, e)
  }

  /** `new_note_action`: the answer to the name prompt (None when cancelled). */
  function NewNote(s: NoteStore, answer: Option<string>): (r: Result<NoteStore, NoteError>)
    requires Valid(s)
    ensures r == Failure(Cancelled) <==> answer.None? || Blank(answer.value)
    ensures r == Failure(NameExists) <==> answer.Some? && !Blank(answer.value) && Strip(answer.value) in s.order
    ensures r.Failure? ==> r.error in {Cancelled, NameExists}
    ensures r.Success? ==> && Valid(r.value)
                           && r.value.order == s.order + [Strip(answer.value)]
                           && Get(r.value.notes, Strip(answer.value)) == Some([])
                           && forall k :: k != Strip(answer.value) ==> Get(r.value.notes, k) == Get(s.notes, k)
  {
    if answer.None? || Strip(answer.value) == "" then Failure(Cancelled)
    else
      var name := Strip(answer.value);
      if name in s.order then Failure(NameExists)
      else Success(NoteStore(Set(s.notes, name, []), s.order + [name]))
  }

  /** `delete_item_action`: after the confirmation, pop the entry; a note left
      with no entries is deleted from the dict and from the order list. */
  function DeleteEntry(s: NoteStore, name: string, index: nat, confirmed: bool): (r: Result<NoteStore, NoteError>)
    requires Valid(s)
    ensures r.Success? <==> confirmed && name in s.order && index < |EntriesOf(s, name)|
    ensures r.Failure? ==> r.error == if !confirmed then Cancelled else if name in s.order then NoSuchEntry else UnknownNote
    ensures r.Success? ==> Valid(r.value)
    ensures r.Success? && |EntriesOf(s, name)| > 1 ==>
      && r.value.order == s.order
      && |EntriesOf(r.value, name)| == |EntriesOf(s, name)| - 1
      && forall j :: 0 <= j < |EntriesOf(r.value, name)| ==>
           EntriesOf(r.value, name)[j] == EntriesOf(s, name)[if j < index then j else j + 1]
    ensures r.Success? && |EntriesOf(s, name)| == 1 ==>
      name !in r.value.order && r.value.order == RemoveFirst(s.order, name)
    ensures r.Success? ==> forall k :: k != name ==> Get(r.value.notes, k) == Get(s.notes, k)
  {
    if !confirmed then Failure(Cancelled)
    else if name !in s.order then Failure(UnknownNote)
    else
      var es := EntriesOf(s, name);
      if index >= |es| then Failure(NoSuchEntry)
      else
        var rest := es[..index] + es[index + 1..];
        if rest == [] then
          RemoveFromWellFormed(s.notes, name);
          Success(NoteStore(Remove(s.notes, name), RemoveFirst(s.order, name)))
        else
          Success(NoteStore(Set(s.notes, name, rest), s.order))
  }

  // Partners of the window's operations

  /** A store keeps having no empty notes when only `name` changes and is left
      non-empty or gone. */
  lemma NoEmptyAfter(s: NoteStore, r: NoteStore, name: string)
    requires NoEmptyNotes(s)
    requires forall k :: k != name ==> Get(r.notes, k) == Get(s.notes, k)
    requires EntriesOf(r, name) != [] || name !in Keys(r.notes)
    ensures NoEmptyNotes(r)
  {
    forall k | k in Keys(r.notes) ensures EntriesOf(r, k) != [] {
      if k != name {
        assert Get(r.notes, k) == Get(s.notes, k);
      }
    }
  }

  /** After a save in the item dialog, the rewritten file loads back to exactly
      the notes the window shows. */
  lemma OnSaveReloads(s: NoteStore, mode: Mode, nameField: string, moduleId: Option<string>,
                      itemId: Option<string>, descField: string)
    requires Valid(s) && NoEmptyNotes(s)
    requires OnSave(s, mode, nameField, moduleId, itemId, descField).Success?
    ensures var r := OnSave(s, mode, nameField, moduleId, itemId, descField);
      LoadNotes(SaveAllNotes(r.value.notes)) == r
  {
    var r := OnSave(s, mode, nameField, moduleId, itemId, descField).value;
    if mode.EditMode? {
      assert EntriesOf(r, Strip(nameField)) != [];
    }
    NoEmptyAfter(s, r, Strip(nameField));
    SavedStoreReloads(r);
  }

  /** After a deletion, the rewritten file loads back to exactly the notes the
      window shows. */
  lemma DeleteReloads(s: NoteStore, name: string, index: nat)
    requires Valid(s) && NoEmptyNotes(s) && DeleteEntry(s, name, index, true).Success?
    ensures LoadNotes(SaveAllNotes(DeleteEntry(s, name, index, true).value.notes)) == DeleteEntry(s, name, index, true)
  {
    var r := DeleteEntry(s, name, index, true).value;
    if |EntriesOf(s, name)| > 1 {
      assert |EntriesOf(r, name)| > 0;
    }
    NoEmptyAfter(s, r, name);
    SavedStoreReloads(r);
  }

  /** A new note has no entries, so the rewritten file is the same as before
      and a reload does not bring the note back. */
  lemma NewNoteVanishesOnReload(s: NoteStore, answer: Option<string>)
    requires Valid(s) && NoEmptyNotes(s) && NewNote(s, answer).Success?
    ensures SaveAllNotes(NewNote(s, answer).value.notes) == SaveAllNotes(s.notes)
    ensures LoadNotes(SaveAllNotes(NewNote(s, answer).value.notes)) == Success(s)
  {
    var name := Strip(answer.value);
    assert NewNote(s, answer).value.notes == s.notes + [(name, [])];
    SaveAllAppend(s.notes, [(name, [])]);
    assert SaveAllNotes([(name, [])]) == [];
    assert SaveAllNotes(s.notes) + [] == SaveAllNotes(s.notes);
    SavedStoreReloads(s);
  }

  /** Deleting the entry just added to a note undoes the addition. (A note that
      existed with no entries is excluded: the deletion empties it, so it goes.) */
  lemma DeleteUndoesAdd(s: NoteStore, name: string, e: Entry)
    requires Valid(s) && (name !in s.order || EntriesOf(s, name) != [])
    ensures DeleteEntry(AddEntry(s, name, e), name, |EntriesOf(s, name)|, true) == Success(s)
  {
    var es := EntriesOf(s, name);
    var a := AddEntry(s, name, e);
    assert (es + [e])[..|es|] + (es + [e])[|es| + 1..] == es;
    if name in s.order {
      SetTwice(s.notes, name, es + [e], es);
      SetCurrent(s.notes, name);
    } else {
      AddEntryToNewNote(s, name, e);
      RemoveLast(s.notes, name, [e]);
      RemoveFirstLast(s.order, name);
    }
  }

  /** Editing an entry and then editing it back restores the store. */
  lemma EditBackRestores(s: NoteStore, name: string, index: nat, e: Entry)
    requires Valid(s) && EditEntry(s, name, index, e).Success?
    ensures EditEntry(EditEntry(s, name, index, e).value, name, index, EntriesOf(s, name)[index]) == Success(s)
  {
    var es := EntriesOf(s, name);
    assert es[index := e][index := es[index]] == es;
    SetTwice(s.notes, name, es[index := e], es);
    SetCurrent(s.notes, name);
  }
}

=== FILE: seqs.dfy ===
/** Sequence notions shared by the catalog, the notes store and the module list. */
module Seqs {

  /** No element occurs twice. */
  predicate Distinct<T(==)>(s: seq<T>) {
    forall i, j :: 0 <= i < j < |s| ==> s[i] != s[j]
  }

  /** The distinct elements of `s`, each kept where it first occurs: what one
      left-to-right pass with a "seen" set and an append-only list computes. */
  function Dedup<T(==)>(s: seq<T>): (r: seq<T>)
    ensures Distinct(r)
    ensures forall i :: 0 <= i < |s| ==> s[i] in r
    ensures forall i :: 0 <= i < |r| ==> r[i] in s
  {
    if |s| == 0 then []
    else
      var d := Dedup(s[..|s| - 1]);
      assert s == s[..|s| - 1] + [s[|s| - 1]];
      if s[|s| - 1] in d then d else d + [s[|s| - 1]]
  }

  lemma DedupSnoc<T>(s: seq<T>, x: T)
    ensures Dedup(s + [x]) == if x in Dedup(s) then Dedup(s) else Dedup(s) + [x]
  {
    assert (s + [x])[..|s|] == s;
  }

  /** Position of the first occurrence of `x` in `s`. */
  function IndexOf<T(==)>(s: seq<T>, x: T): (i: nat)
    requires x in s
    ensures i < |s| && s[i] == x
    ensures forall j :: 0 <= j < i ==> s[j] != x
  {
    if s[0] == x then 0 else 1 + IndexOf(s[1..], x)
  }

  lemma {:induction false} IndexOfAppend<T>(p: seq<T>, q: seq<T>, x: T)
    requires x in p + q
    ensures IndexOf(p + q, x) == if x in p then IndexOf(p, x) else |p| + IndexOf(q, x)
  {
    if |p| == 0 {
      assert p + q == q;
    } else if p[0] != x {
      assert (p + q)[1..] == p[1..] + q;
      assert x in p[1..] + q;
      assert x in p <==> x in p[1..];
      IndexOfAppend(p[1..], q, x);
    }
  }

  /** `Dedup` lists the distinct elements in the order of their first occurrences. */
  lemma {:induction false} DedupKeepsFirstSeenOrder<T>(s: seq<T>, i: nat, j: nat)
    requires i < j < |Dedup(s)|
    ensures Dedup(s)[i] in s && Dedup(s)[j] in s
    ensures IndexOf(s, Dedup(s)[i]) < IndexOf(s, Dedup(s)[j])
  {
    var p := s[..|s| - 1];
    var x := s[|s| - 1];
    assert s == p + [x];
    var d := Dedup(p);
    var a, b := Dedup(s)[i], Dedup(s)[j];
    if x in d {
      DedupKeepsFirstSeenOrder(p, i, j);
      IndexOfAppend(p, [x], a);
      IndexOfAppend(p, [x], b);
    } else if j < |d| {
      DedupKeepsFirstSeenOrder(p, i, j);
      IndexOfAppend(p, [x], a);
      IndexOfAppend(p, [x], b);
    } else {
      assert b == x && x !in p;
      assert a == d[i] && a in p;
      IndexOfAppend(p, [x], a);
      IndexOfAppend(p, [x], b);
    }
  }

  /** The first occurrence is the only position that holds `x` with no `x` before it. */
  lemma IndexOfUnique<T>(s: seq<T>, x: T, i: nat)
    requires i < |s| && s[i] == x
    requires forall j :: 0 <= j < i ==> s[j] != x
    ensures IndexOf(s, x) == i
  {
  }

  /** `list.remove(x)`: drop the first occurrence of `x` and keep the rest in
      order. A list without `x` is left as it is: Python raises `ValueError`
      there, and the callers here never reach that case. */
  function RemoveFirst<T(==)>(s: seq<T>, x: T): (r: seq<T>)
    ensures x in s ==> |r| == |s| - 1
    ensures x in s ==> forall j :: 0 <= j < |r| ==> r[j] == s[Skip(j, IndexOf(s, x))]
    ensures x !in s ==> r == s
    ensures forall i :: 0 <= i < |r| ==> r[i] in s
    ensures forall i :: 0 <= i < |s| && s[i] != x ==> s[i] in r
  {
    if x in s then
      var i := IndexOf(s, x);
      forall j | 0 <= j < |s| - 1
        ensures (s[..i] + s[i + 1..])[j] == s[Skip(j, i)]
      {
      }
      assert forall j :: 0 <= j < |s| && j != i ==> s[j] in s[..i] + s[i + 1..] by {
        forall j | 0 <= j < |s| && j != i
          ensures s[j] in s[..i] + s[i + 1..]
        {
          if j < i { assert s[j] == (s[..i] + s[i + 1..])[j]; }
          else { assert s[j] == (s[..i] + s[i + 1..])[j - 1]; }
        }
      }
      s[..i] + s[i + 1..]
    else s
  }

  lemma RemoveFirstOfDistinct<T>(s: seq<T>, x: T)
    requires Distinct(s)
    ensures x !in RemoveFirst(s, x)
    ensures Distinct(RemoveFirst(s, x))
  {
    if x in s {
      var i := IndexOf(s, x);
      var r := RemoveFirst(s, x);
      forall a, b | 0 <= a < b < |r|
        ensures r[a] != r[b]
      {
        assert r[a] == s[Skip(a, i)] && r[b] == s[Skip(b, i)];
      }
      forall a | 0 <= a < |r|
        ensures r[a] != x
      {
        assert r[a] == s[Skip(a, i)];
      }
    }
  }

  /** Position in a list of position `a` of the list with position `i` removed. */
  function Skip(a: nat, i: nat): nat {
    if a < i then a else a + 1
  }

  /** Removing an element that was appended last gives back the list before it. */
  lemma RemoveFirstLast<T>(s: seq<T>, x: T)
    requires x !in s
    ensures RemoveFirst(s + [x], x) == s
  {
    IndexOfAppend(s, [x], x);
    assert (s + [x])[..|s|] == s;
  }

  /** `a` is `b` with some elements left out, the rest kept in order. */
  predicate IsSubsequence<T(==)>(a: seq<T>, b: seq<T>) {
    if |a| == 0 then true
    else if |b| == 0 then false
    else if a[0] == b[0] then IsSubsequence(a[1..], b[1..])
    else IsSubsequence(a, b[1..])
  }

  /** A subsequence of `b` is a subsequence of `b` with one more element in front. */
  lemma {:induction false} SubsequenceCons<T>(a: seq<T>, b: seq<T>, x: T)
    requires IsSubsequence(a, b)
    ensures IsSubsequence(a, [x] + b)
    decreases |b|, 1
  {
    assert ([x] + b)[1..] == b;
    if |a| > 0 && a[0] == x {
      SubsequenceTail(a, b);
    }
  }

  /** Dropping the first element of a subsequence leaves a subsequence. */
  lemma {:induction false} SubsequenceTail<T>(a: seq<T>, b: seq<T>)
    requires |a| > 0 && IsSubsequence(a, b)
    ensures IsSubsequence(a[1..], b)
    decreases |b|, 0
  {
    if a[0] == b[0] {
      SubsequenceCons(a[1..], b[1..], b[0]);
    } else {
      SubsequenceTail(a, b[1..]);
      SubsequenceCons(a[1..], b[1..], b[0]);
    }
    assert [b[0]] + b[1..] == b;
  }
}

=== FILE: text.dfy ===
/** The string operations the data layer uses: `str.strip()`, `str.lower()` and
    the substring test `needle in haystack`, on ASCII text. */
module Text {

  /** The characters `str.isspace()` accepts in the ASCII range. */
  predicate IsSpace(c: char) {
    // space, tab to carriage return (9-13), and the four separators 28-31
    c == ' ' || 9 <= c as int <= 13 || 28 <= c as int <= 31
  }

  function StripLeft(s: string): (r: string)
    ensures |r| <= |s| && r == s[|s| - |r|..]
    ensures forall k :: 0 <= k < |s| - |r| ==> IsSpace(s[k])
    ensures |r| > 0 ==> !IsSpace(r[0])
  {
    if |s| > 0 && IsSpace(s[0]) then StripLeft(s[1..]) else s
  }

  function StripRight(s: string): (r: string)
    ensures |r| <= |s| && r == s[..|r|]
    ensures forall k :: |r| <= k < |s| ==> IsSpace(s[k])
    ensures |r| > 0 ==> !IsSpace(r[|r| - 1])
  {
    if |s| > 0 && IsSpace(s[|s| - 1]) then StripRight(s[..|s| - 1]) else s
  }

  /** `s.strip()`: the slice of `s` left after dropping leading and trailing
      whitespace. It is empty exactly when `s` is all whitespace. */
  function Strip(s: string): (r: string)
    ensures Contains(s, r)
    ensures |r| > 0 ==> !IsSpace(r[0]) && !IsSpace(r[|r| - 1])
    ensures |r| == 0 <==> forall k :: 0 <= k < |s| ==> IsSpace(s[k])
    ensures exists i: nat :: i <= |s| - |r| && OccursAt(s, r, i) && StripsTo(s, r, i)
  {
    var r := StripRight(StripLeft(s));
    StripIsSlice(s);
    assert |r| > 0 ==> !IsSpace(r[|r| - 1]);
    r
  }

  /** Everything in `s` before position `i` and after the slice `r` there is whitespace. */
  predicate StripsTo(s: string, r: string, i: nat)
    requires i + |r| <= |s|
  {
    && (forall k :: 0 <= k < i ==> IsSpace(s[k]))
    && (forall k :: i + |r| <= k < |s| ==> IsSpace(s[k]))
  }

  lemma StripIsSlice(s: string)
    ensures var r := StripRight(StripLeft(s));
      && (exists i: nat :: i <= |s| - |r| && OccursAt(s, r, i) && StripsTo(s, r, i))
      && Contains(s, r)
      && (|r| > 0 ==> !IsSpace(r[0]))
      && (|r| == 0 <==> forall k :: 0 <= k < |s| ==> IsSpace(s[k]))
  {
    var l := StripLeft(s);
    var r := StripRight(l);
    var i := |s| - |l|;
    StripOccurs(s, l, r, i);
    StripBounds(s, l, r, i);
    if |r| == 0 {
      assert |l| == 0;
    } else {
      assert r[0] == l[0];
    }
  }

  lemma StripBounds(s: string, l: string, r: string, i: nat)
    requires l == StripLeft(s) && r == StripRight(l) && i == |s| - |l|
    ensures exists j: nat :: j <= |s| - |r| && OccursAt(s, r, j) && StripsTo(s, r, j)
  {
    StripOccurs(s, l, r, i);
    forall k | i + |r| <= k < |s|
      ensures IsSpace(s[k])
    {
      assert s[k] == l[k - i];
    }
    assert i <= |s| - |r| && OccursAt(s, r, i) && StripsTo(s, r, i);
  }

  lemma StripOccurs(s: string, l: string, r: string, i: nat)
    requires i <= |s| && l == s[i..] && |r| <= |l| && r == l[..|r|]
    ensures OccursAt(s, r, i) && Contains(s, r)
  {
    assert s[i..i + |r|] == r;
    assert 0 <= i <= |s| && OccursAt(s, r, i);
  }

  /** `c.lower()` for an ASCII character; other characters are left alone. */
  function LowerChar(c: char): char {
    if 'A' <= c <= 'Z' then (c as int + 32) as char else c
  }

  /** `s.lower()` */
  function Lower(s: string): (r: string)
    ensures |r| == |s|
    ensures forall k :: 0 <= k < |r| ==> !('A' <= r[k] <= 'Z')
    ensures forall k :: 0 <= k < |s| && !('A' <= s[k] <= 'Z') ==> r[k] == s[k]
    ensures forall k :: 0 <= k < |s| && 'A' <= s[k] <= 'Z' ==> r[k] as int == s[k] as int + 32
    ensures forall k :: 0 <= k < |s| ==> r[k] == LowerChar(s[k])
  {
    seq(|s|, k requires 0 <= k < |s| => LowerChar(s[k]))
  }

  /** Lower-casing twice is lower-casing once. */
  lemma LowerIdempotent(s: string)
    ensures Lower(Lower(s)) == Lower(s)
  {
  }

  /** `needle in haystack` for strings: `needle` occurs as a contiguous slice. */
  predicate Contains(haystack: string, needle: string) {
    exists i :: 0 <= i <= |haystack| && OccursAt(haystack, needle, i)
  }

  predicate OccursAt(haystack: string, needle: string, i: nat) {
    i + |needle| <= |haystack| && haystack[i..i + |needle|] == needle
  }

  /** The empty search term occurs in every string. */
  lemma ContainsEmpty(haystack: string)
    ensures Contains(haystack, "")
  {
    assert OccursAt(haystack, "", 0);
  }

  /** A substring of a substring is a substring. */
  lemma ContainsTransitive(h: string, m: string, n: string)
    requires Contains(h, m) && Contains(m, n)
    ensures Contains(h, n)
  {
    var i :| 0 <= i <= |h| && OccursAt(h, m, i);
    var j :| 0 <= j <= |m| && OccursAt(m, n, j);
    forall k | 0 <= k < |n| ensures h[i + j + k] == n[k] {
      assert n[k] == m[j + k] && m[j + k] == h[i + j + k];
    }
    assert OccursAt(h, n, i + j);
  }
}

=== FILE: theme.dfy ===
/** The theme manager: the name of the current colour theme, the palettes it
    names, and the `theme` key of the JSON settings file that remembers it
    between runs. */
module Theme {
  import opened Wrappers
  import opened Dicts

  /** Widget role to colour. */
  type Palette = map<string, string>

  /** The roles every palette colours. */
  const Roles: set<string> := {
    "bg", "fg", "select_bg", "select_fg", "entry_bg", "entry_fg", "button_bg",
    "button_fg", "frame_bg", "listbox_bg", "listbox_fg", "tree_bg", "tree_fg"
  }

  const Light: Palette := map[
    "bg" := "#ffffff", "fg" := "#000000", "select_bg" := "#dedede", "select_fg" := "#ffffff",
    "entry_bg" := "#ffffff", "entry_fg" := "#000000", "button_bg" := "#f0f0f0",
    "button_fg" := "#000000", "frame_bg" := "#f0f0f0", "listbox_bg" := "#ffffff",
    "listbox_fg" := "#000000", "tree_bg" := "#ffffff", "tree_fg" := "#000000"
  ]

  const Dark: Palette := map[
    "bg" := "#2d2d2d", "fg" := "#ffffff", "select_bg" := "#dedede", "select_fg" := "#ffffff",
    "entry_bg" := "#404040", "entry_fg" := "#ffffff", "button_bg" := "#404040",
    "button_fg" := "#ffffff", "frame_bg" := "#2d2d2d", "listbox_bg" := "#404040",
    "listbox_fg" := "#ffffff", "tree_bg" := "#404040", "tree_fg" := "#ffffff"
  ]

  /** `THEMES` */
  const Themes: map<string, Palette> := map["light" := Light, "dark" := Dark]

  /** A JSON value as `json.load` returns it (numbers are whole numbers here). */
  datatype Json =
    | JNull
    | JBool(b: bool)
    | JNumber(n: int)
    | JString(s: string)
    | JArray(elems: seq<Json>)
    | JObject(members: Dict<string, Json>)

  /** The settings file: missing, not valid JSON, or a JSON document. */
  datatype SettingsFile = Absent | Malformed | Document(json: Json)

  /** The theme manager's `current_theme` (whatever value was put there) and the
      settings file it reads and writes. */
  datatype ThemeState = ThemeState(current: Json, file: SettingsFile)

  /** `ThemeManager()` at start-up: the light theme. */
  function Init(file: SettingsFile): (st: ThemeState)
    ensures KnownTheme(st.current) && GetTheme(st.current) == Some(Light)
    ensures st.file == file
  {
    ThemeState(JString("light"), file)
  }

  /** `current_theme` names one of the themes, so `THEMES[current_theme]` succeeds. */
  predicate KnownTheme(current: Json) {
    current.JString? && current.s in Themes
  }

  /** `get_theme`: the palette of the current theme; `None` where the lookup
      raises (a name that is not a theme, or a value that is not a string). */
  function GetTheme(current: Json): (r: Option<Palette>)
    ensures r.Some? <==> KnownTheme(current)
    ensures current == JString("light") ==> r == Some(Light)
    ensures current == JString("dark") ==> r == Some(Dark)
    ensures r.Some? ==> r.value.Keys == Roles
  {
    PalettesColourEveryRole();
    if current.JString? && current.s in Themes then Some(Themes[current.s]) else None
  }

  lemma PalettesColourEveryRole()
    ensures Light.Keys == Roles && Dark.Keys == Roles
    ensures Themes.Keys == {"light", "dark"}
  {
  }

  /** Why `save_settings` could not write the file. */
  datatype SaveError = NotAnObject   // the file holds JSON that is not an object: item assignment raises

  /** `save_settings(settings_data)`: the document written to the file. Without
      data, the existing file is the base (an absent or malformed file counts
      as `{}`); either way `theme` is set to the current theme and every other
      key is kept, in its place. */
  function SaveSettings(file: SettingsFile, current: Json, data: Option<Dict<string, Json>>): (r: Result<Json, SaveError>)
    ensures r.Failure? <==> data.None? && file.Document? && !file.json.JObject?
    ensures r.Success? ==> r.value.JObject? && Get(r.value.members, "theme") == Some(current)
    ensures r.Success? && data.Some? ==>
      && Keys(r.value.members) == (if "theme" in Keys(data.value) then Keys(data.value)
                                   else Keys(data.value) + ["theme"])
      && forall k :: k != "theme" ==> Get(r.value.members, k) == Get(data.value, k)
    ensures r.Success? && data.None? && file.Document? ==>
      && Keys(r.value.members) == (if "theme" in Keys(file.json.members) then Keys(file.json.members)
                                   else Keys(file.json.members) + ["theme"])
      && forall k :: k != "theme" ==> Get(r.value.members, k) == Get(file.json.members, k)
    ensures r.Success? && data.None? && !file.Document? ==> r.value.members == [("theme", current)]
  {
    var base: Result<Dict<string, Json>, SaveError> :=
      match data
      case Some(d) => Success(d)
      case None =>
        match file
        case Absent => Success([])
        case Malformed => Success([])
        case Document(j) => if j.JObject? then Success(j.members) else Failure(NotAnObject);
    match base
    case Failure(e) => Failure(e)
    case Success(d) => Success(JObject(Set(d, "theme", current)))
  }

  /** `set_theme`: a theme name switches the current theme and rewrites the
      file (left as it was when the save fails); any other name does nothing. */
  function SetTheme(st: ThemeState, name: string): (r: ThemeState)
    ensures name !in Themes ==> r == st
    ensures name in Themes ==> r.current == JString(name) && KnownTheme(r.current)
    ensures name in Themes ==> match SaveSettings(st.file, JString(name), None)
      case Success(doc) => r.file == Document(doc)
      case Failure(_) => r.file == st.file
  {
    if name in Themes then
      var file := match SaveSettings(st.file, JString(name), None)
        case Success(doc) => Document(doc)
        case Failure(_) => st.file;
      ThemeState(JString(name), file)
    else st
  }

  /** The `theme` value the file stores: present only in a JSON object that has the key. */
  function StoredTheme(file: SettingsFile): Option<Json> {
    if file.Document? && file.json.JObject? then Get(file.json.members, "theme") else None
  }

  /** `load_settings` as written: the `theme` value of a JSON object file,
      whatever it is, replaces the current theme; a missing, malformed or
      non-object file, or one without the key, leaves it alone. */
  function LoadSettingsAsWritten(st: ThemeState): (r: ThemeState)
    ensures r.file == st.file
    ensures StoredTheme(st.file).Some? ==> r.current == StoredTheme(st.file).value
    ensures StoredTheme(st.file).None? ==> r == st
  {
    match st.file
    case Document(JObject(m)) =>
      (match Get(m, "theme")
       case Some(t) => st.(current := t)
       case None => st)
    case _ => st
  }

  /** A settings file whose theme is not one of the themes breaks `get_theme`
      after `load_settings` as written: the light theme is lost and the lookup raises. */
  lemma UnknownThemeBreaksGetTheme()
    ensures var file := Document(JObject([("theme", JString("blue"))]));
      GetTheme(LoadSettingsAsWritten(Init(file)).current).None?
  {
    var m: Dict<string, Json> := [("theme", JString("blue"))];
    assert Keys(m) == ["theme"];
    assert Get(m, "theme") == Some(JString("blue"));
    assert "blue" !in Themes;
  }

  /** `load_settings` as evidently intended: only a `theme` string that names
      one of the themes replaces the current theme. */
  function LoadSettings(st: ThemeState): (r: ThemeState)
    ensures r.file == st.file
    ensures KnownTheme(st.current) ==> KnownTheme(r.current)
    ensures StoredTheme(st.file).Some? && KnownTheme(StoredTheme(st.file).value) ==>
      r.current == StoredTheme(st.file).value
    ensures !(StoredTheme(st.file).Some? && KnownTheme(StoredTheme(st.file).value)) ==> r == st
  {
    match st.file
    case Document(JObject(m)) =>
      (match Get(m, "theme")
       case Some(t) => if KnownTheme(t) then st.(current := t) else st
       case None => st)
    case _ => st
  }

  /** The two loads agree whenever the file stores no theme or one of the
      themes, so the correction only changes the bad case. */
  lemma LoadSettingsAgrees(st: ThemeState)
    requires StoredTheme(st.file).Some? ==> KnownTheme(StoredTheme(st.file).value)
    ensures LoadSettings(st) == LoadSettingsAsWritten(st)
  {
  }

  /** With the corrected load, the theme at start-up always has a palette,
      whatever the settings file holds. */
  lemma StartupThemeUsable(file: SettingsFile)
    ensures GetTheme(LoadSettings(Init(file)).current).Some?
    ensures GetTheme(LoadSettings(Init(file)).current).value.Keys == Roles
  {
  }

  /** Choosing a theme survives a restart: once the file is rewritten, loading
      it gives back the chosen theme, whatever the theme was before. */
  lemma SetThemeThenLoad(st: ThemeState, name: string, before: Json)
    requires name in Themes
    requires !(st.file.Document? && !st.file.json.JObject?)
    ensures LoadSettings(ThemeState(before, SetTheme(st, name).file)).current == JString(name)
    ensures LoadSettingsAsWritten(ThemeState(before, SetTheme(st, name).file)).current == JString(name)
  {
    var r := SaveSettings(st.file, JString(name), None);
    assert r.Success?;
    assert "theme" in Keys(r.value.members);
  }

  /** Setting the same theme twice writes the same file as setting it once. */
  lemma SetThemeIdempotent(st: ThemeState, name: string)
    ensures SetTheme(SetTheme(st, name), name) == SetTheme(st, name)
  {
    if name in Themes {
      var s1 := SetTheme(st, name);
      if SaveSettings(st.file, JString(name), None).Success? {
        var m := s1.file.json.members;
        assert "theme" in Keys(m);
        SetCurrent(m, "theme");
      }
    }
  }

  /** The example of an empty settings object: choosing the dark theme writes
      `{"theme": "dark"}`, and the next start-up uses the dark palette, with the
      load as written and with the corrected one. */
  lemma DarkThemeRemembered()
    ensures var st := SetTheme(Init(Document(JObject([]))), "dark");
      && st.file == Document(JObject([("theme", JString("dark"))]))
      && GetTheme(LoadSettingsAsWritten(Init(st.file)).current) == Some(Dark)
      && GetTheme(LoadSettings(Init(st.file)).current) == Some(Dark)
  {
    assert Set([], "theme", JString("dark")) == [("theme", JString("dark"))];
    SetThemeThenLoad(Init(Document(JObject([]))), "dark", JString("light"));
  }
}

=== FILE: wrappers.dfy ===
/** Failure-carrying datatypes used to model Python's `None` results and raised exceptions. */
module Wrappers {

  /** A value that may be absent, as `dict.get` returns `None` for a missing key. */
  datatype Option<+T> = None | Some(value: T)

  /** The outcome of an operation that the program either completes or abandons with an error. */
  datatype Result<+T, +E> = Success(value: T) | Failure(error: E)
}
